=== FILE: README.md ===
# Claims portal: review workflow, claim form, signup and route guard

A Dafny model of the decision logic of the claims portal's React client.
The portal lists pending insurance claims for an administrator, fetches a
fraud score for the claim under review, and posts an approve/reject
decision. Providers submit claims one by one or as a CSV upload, and new
users sign up.

Every asynchronous handler is modelled as pure transitions over immutable
records. Each remote call is an explicit `Remote<T>` outcome, `Ok(data)` or
`Err(info)`. `Promise.allSettled` becomes two such outcomes.

Modules:

- `Wrappers` (`wrappers.dfy`): `Option`, used for absent (`undefined`) fields.
- `Text` (`text.dfy`): JavaScript's `trim`, case mapping and `includes`. It also
  defines the whitespace class shared by `trim` and the regular-expression `\s`.
- `Json` (`json.dfy`): flat JavaScript values, truthiness, `??` and `||`, and
  the error fields a failed request exposes.
- `Queue` (`queue.dfy`): the admin page's `load`, which merges two settled loads
  (the first error wins). Also the search filter and the summary counters.
- `Review` (`review.dfy`): the review drawer's state machine (open, score
  success, score failure, decide, decision success/failure, close, toggle raw)
  and the decision payload.
- `ClaimNormalize` (`claimform.dfy`): `normalize`, `validateClient` and the
  single-claim submit.
- `BulkUpload` (`bulkupload.dfy`): the CSV upload, posted in chunks of at most
  1000 rows.
- `Signup` (`signup.dfy`): `emailValid`, `pwMatch`, `canSubmit`, `submit` and
  its request body.
- `Routes` (`routes.dfy`): `getUser`, `RequireRole` and the route table.

Three behaviours of the code are easy to miss:

- Escape, the Close button and a backdrop click close the panel even while a
  decision is in flight (`Review.Close`).
- `decide` checks only that a panel is open. It does not check `busy`
  (`Review.DecideIgnoresBusy`). The page prevents double posts only by
  disabling its buttons, and a scoring reply arriving during a decision
  resets `busy` and re-enables them (`Review.ScoreReplyClearsBusy`).
- A scoring response is applied to whatever the panel is when it arrives
  (`Review.ScoreSucceeded`). Nothing checks whether the response is stale.
  See Findings.

## Model

| member | source | states |
|---|---|---|
| Text.IsSpace | src/pages/ClaimForm.jsx:24 | defines the characters `trim()` removes: ASCII tab, line feed, vertical tab, form feed, carriage return and space, and the Unicode white-space and line-terminator characters including the no-break space and the byte-order mark |
| Text.TrimStart | src/pages/ClaimForm.jsx:24 | the result is a suffix of the input, with only whitespace removed before it, and does not start with whitespace |
| Text.TrimEnd | src/pages/ClaimForm.jsx:24 | the result is a prefix of the input, with only whitespace removed after it, and does not end with whitespace |
| Text.Trim | src/pages/ClaimForm.jsx:24 | `trim()` returns the input with whitespace removed at the two ends and nothing else removed: the result occurs in the input with only whitespace before and after it, and has no whitespace at either end; the result is empty exactly when the input is all whitespace |
| Text.TrimOfTrimmed | src/pages/ClaimForm.jsx:24 | trimming a string with no whitespace at either end leaves it unchanged |
| Text.TrimIdempotent | src/pages/ClaimForm.jsx:24 | trimming twice equals trimming once |
| Text.ToLower | src/pages/AdminReview.jsx:105 | `toLowerCase()` keeps the length, maps each character, and leaves no upper-case ASCII letter |
| Text.ToUpper | src/pages/ClaimForm.jsx:33 | `toUpperCase()` keeps the length, maps each character, and leaves no lower-case ASCII letter |
| Text.ToLowerIdempotent | src/pages/AdminReview.jsx:105 | lower-casing twice equals lower-casing once |
| Text.Contains | src/pages/AdminReview.jsx:106 | defines `s.includes(t)`: `t` occurs in `s` at some offset; the empty string occurs in every string |
| Json.Coalesce | src/pages/AdminReview.jsx:117 | `x ?? d` is `x` unless `x` is null or undefined, and `d` otherwise |
| Json.OrElse | src/pages/AdminReview.jsx:74-76 | the `or` of two strings is the first when it is present and non-empty, and the second otherwise |
| Json.ErrorOrMessage | src/pages/AdminReview.jsx:73-76 | a load failure's message is the server error, else the exception message, else the fallback; it is never empty |
| Json.Truthy | src/pages/ClaimForm.jsx:69-70 | defines JavaScript truthiness: null, false, 0 and the empty string are falsy, every other value is truthy (also used at ClaimForm.jsx:32, AdminReview.jsx:159 and App.jsx:18) |
| Queue.Load | src/pages/AdminReview.jsx:60-92 | after a load, `loading` is false. A failed pending load empties the list. A failed summary load keeps the previous summary. The error is empty iff both loads succeed. When the pending load fails, its message is the one kept |
| Queue.PendingFailureKeepsSummary | src/pages/AdminReview.jsx:69-88 | with a failed pending load and a successful summary load, the queue is empty, the counters are the fetched ones and the error is the pending-claims message |
| Queue.FirstFailureWins | src/pages/AdminReview.jsx:77-87 | when both loads fail, the pending-claims message is kept and the summary is unchanged |
| Queue.DisplayCounters | src/pages/AdminReview.jsx:179-180 | a missing summary or `overall` shows all four counters as 0; each missing counter shows as 0 |
| Queue.KeepFirst | src/pages/AdminReview.jsx:77 | defines the functional error update: an earlier error message wins over a later one |
| Queue.QueryKey | src/pages/AdminReview.jsx:101 | defines the filter's key: the query trimmed, then lower-cased |
| Queue.Matches | src/pages/AdminReview.jsx:103-106 | defines a match: the lower-cased id, provider or diagnosis group code (a missing one read as "") contains the key |
| Queue.KeepMatching | src/pages/AdminReview.jsx:103-107 | the filter keeps exactly the claims whose lower-cased id, provider or diagnosis code contains the query, and never grows the list |
| Queue.Filtered | src/pages/AdminReview.jsx:100-108 | a blank query after trimming and lower-casing returns `items` itself; otherwise a claim is kept iff it matches |
| Queue.KeepMatchingConcat | src/pages/AdminReview.jsx:103-107 | filtering distributes over concatenation, so kept claims stay in their original relative order |
| Queue.FilteredConcat | src/pages/AdminReview.jsx:100-108 | the filtered view of `a + b` is the view of `a` followed by the view of `b` |
| Queue.KeepMatchingIdempotent | src/pages/AdminReview.jsx:103-107 | filtering an already filtered list with the same query changes nothing |
| Queue.FilteredIdempotent | src/pages/AdminReview.jsx:100-108 | the filtered view is a fixed point of the filter |
| Queue.ExactIdIsKept | src/pages/AdminReview.jsx:101-106 | a claim whose lower-cased id is exactly the trimmed, lower-cased query is always listed |
| Queue.BlankQueryShowsAll | src/pages/AdminReview.jsx:101-102 | a query made only of whitespace shows the whole queue |
| Review.Mount | src/pages/AdminReview.jsx:94-98 | the mount effect loads the queue only on its first run and marks the page loaded |
| Review.MountOnce | src/pages/AdminReview.jsx:94-98 | running the mount effect twice loads the queue once |
| Review.Refresh | src/pages/AdminReview.jsx:192-194 | Refresh reloads the queue and leaves the panel and the query unchanged |
| Review.OpenReview | src/pages/AdminReview.jsx:110-111 | opening a claim at once yields a panel on that claim, with scoring loading, not busy and raw hidden; nothing else changes |
| Review.MlOf | src/pages/AdminReview.jsx:116-124 | `label` defaults to "UNKNOWN", `score` equals `probability`, `topFeatures` defaults to [] and the other fields are copied |
| Review.ScoreSucceeded | src/pages/AdminReview.jsx:126-135 | a successful score shows `rawClaim` if present, else the selected claim; scoring holds the ml response; the panel is not busy, whatever the panel was before |
| Review.ScoringError | src/pages/AdminReview.jsx:142 | the scoring error is the first present of server error, server detail, exception message, "Scoring failed" |
| Review.ScoreFailed | src/pages/AdminReview.jsx:136-146 | a failed score keeps the selected claim, resets busy and records the scoring error |
| Review.ScoreFailedGuarded | src/pages/AdminReview.jsx:136-146 | corrected failure handler: applied only while the panel still awaits that claim's score, otherwise the page is unchanged |
| Review.Close | src/pages/AdminReview.jsx:172-177 | Escape (and the Close button and backdrop) discards the panel, busy or not; nothing else changes |
| Review.ToggleRaw | src/pages/AdminReview.jsx:401-407 | the toggle flips `showRaw` and leaves every other panel field unchanged |
| Review.ToggleRawInvolution | src/pages/AdminReview.jsx:406 | toggling twice restores the page |
| Review.MlResponseOf | src/pages/AdminReview.jsx:153-154 | defines `panel?.scoring?.mlResponse`: present only when the scoring finished with a response |
| Review.SendableScore | src/pages/AdminReview.jsx:158 | defines the score test of the payload: a number other than 0 |
| Review.BuildPayload | src/pages/AdminReview.jsx:153-160 | the payload always has the decision. It has `score` iff the ml score is a number other than 0, and `label` iff the label is truthy, each with the ml value |
| Review.Decide | src/pages/AdminReview.jsx:149-168 | on a closed panel nothing happens. A request is posted iff the panel is open and has a claim; the panel is then marked busy and the payload goes to that claim's id. A panel object without a claim throws before the post, so the page shows "Failed to persist decision" and the panel is left not busy |
| Review.DecideIgnoresBusy | src/pages/AdminReview.jsx:150-151 | `decide` on an already busy panel still posts |
| Review.DecideSendsScoreAndLabel | src/pages/AdminReview.jsx:153-160 | deciding on a scored panel with a nonzero probability and a non-empty label sends decision, score and label |
| Review.DecideWithoutScore | src/pages/AdminReview.jsx:153-160 | deciding while the score loads, or after it failed, sends the decision alone |
| Review.DecideSucceeded | src/pages/AdminReview.jsx:164-165 | a successful decision discards the panel and reloads the queue |
| Review.DecisionError | src/pages/AdminReview.jsx:167 | the page error of a failed decision is the server error, else "Failed to persist decision" |
| Review.SpreadNotBusy | src/pages/AdminReview.jsx:168 | spreading a panel with `busy: false` keeps its other fields; spreading a closed panel gives a panel with no claim and no scoring |
| Review.DecideFailed | src/pages/AdminReview.jsx:166-169 | a failed decision sets the page error and keeps the panel with only `busy` reset |
| Review.DecisionFailureAllowsRetry | src/pages/AdminReview.jsx:166-169 | after decide then failure, the panel is the original with busy false, and the page shows the decision error |
| Review.TransitionsKeepWellFormed | src/pages/AdminReview.jsx:110-169 | every transition keeps each open panel with a claim and a scoring state, except a failed decision on a closed panel; the guarded corrections keep it too. The claim is what rendering needs: the drawer header reads `panel.claim.ClaimID` |
| Review.ScoreReplyClearsBusy | src/pages/AdminReview.jsx:126-146 | a scoring reply or failure arriving while a decision is in flight leaves the panel not busy, so Approve and Reject are enabled again |
| Review.ClosedDecisionFailureBreaksPanel | src/pages/AdminReview.jsx:168 | decide, Escape, then failure leaves an open panel object with no claim, so the drawer header's `panel.claim.ClaimID` has nothing to read |
| Review.DecideFailedGuarded | src/pages/AdminReview.jsx:166-169 | corrected failure handler: a closed panel stays closed, an open one only loses busy, and a renderable page stays renderable |
| Review.ClosedDecisionFailureGuarded | src/pages/AdminReview.jsx:168 | with the correction, decide, Escape, then failure leaves the panel closed with the decision error shown |
| Review.LateScoreReopensPanel | src/pages/AdminReview.jsx:126 | a score arriving after the panel was closed reopens it |
| Review.LateScoreOverwritesOtherClaim | src/pages/AdminReview.jsx:126-127 | claim A's score arriving after claim B was opened shows A |
| Review.LateScoreFailureReopensPanel | src/pages/AdminReview.jsx:138-145 | a scoring failure arriving after the panel was closed reopens it |
| Review.LateScoreFailureOverwritesOtherClaim | src/pages/AdminReview.jsx:138-140 | claim A's scoring failure arriving after claim B was opened replaces B's panel with A's error |
| Review.ScoreSucceededGuarded | src/pages/AdminReview.jsx:126-135 | corrected success handler: applied only while the panel still awaits that claim's score, otherwise the page is unchanged |
| Review.GuardedScoreIgnoresStale | src/pages/AdminReview.jsx:126-146 | with the corrections, a late score or scoring failure neither reopens a closed panel nor replaces another claim's panel, and an awaited one is applied |
| ClaimNormalize.TrimValue | src/pages/ClaimForm.jsx:23-26 | strings are trimmed, blank strings become null, other values are unchanged; the result is never a blank or untrimmed string |
| ClaimNormalize.ChronicValue | src/pages/ClaimForm.jsx:27-31 | "1", 1, true, "Yes" become 1; "0", 0, false, "No" become 0; null or absent becomes null; anything else is unchanged |
| ClaimNormalize.GenderCode | src/pages/ClaimForm.jsx:32-36 | a string denotes "M" iff its upper-case form is M, MALE or 1, and "F" iff it is F, FEMALE or 2; the number 1 denotes M and 2 denotes F; booleans and null denote nothing |
| ClaimNormalize.GenderSpellings | src/pages/ClaimForm.jsx:33-35 | "male", "Male" and "1" denote M; "female", "F" and "2" denote F; "x" and "U" denote nothing |
| ClaimNormalize.GenderValue | src/pages/ClaimForm.jsx:32-36 | a truthy Gender that denotes a gender becomes its letter; anything else is unchanged |
| ClaimNormalize.ToNumber | src/pages/ClaimForm.jsx:38 | `Number(v)` is the number itself, 1 or 0 for booleans, and the parse of a string |
| ClaimNormalize.AmountValue | src/pages/ClaimForm.jsx:37-40 | a non-null amount becomes its numeric conversion unless that is NaN; null stays null |
| ClaimNormalize.TrimPass | src/pages/ClaimForm.jsx:22-26 | the first loop keeps the keys and applies the trim rule to every field |
| ClaimNormalize.ChronicPass | src/pages/ClaimForm.jsx:27-31 | the chronic loop adds the absent chronic keys, maps the chronic fields and leaves the others unchanged |
| ClaimNormalize.GenderPass | src/pages/ClaimForm.jsx:32-36 | only a present Gender field can change |
| ClaimNormalize.AmountPass | src/pages/ClaimForm.jsx:37-40 | only a present amount field can change |
| ClaimNormalize.FieldRule | src/pages/ClaimForm.jsx:21-42 | defines what `normalize` does to one field, taken on its own: trim and null, then the chronic, gender or amount rule that the field's name selects |
| ClaimNormalize.Normalize | src/pages/ClaimForm.jsx:21-42 | `normalize` keeps every key, adds the chronic keys, and gives each field its per-field rule |
| ClaimNormalize.PassesAt | src/pages/ClaimForm.jsx:21-42 | the four sequential passes agree with the per-field rule at every key |
| ClaimNormalize.NotChronic | src/pages/ClaimForm.jsx:5-17 | Gender and the amount are not chronic fields |
| ClaimNormalize.NormalizeKeys | src/pages/ClaimForm.jsx:22-41 | no key is removed; every added key is a chronic field set to null |
| ClaimNormalize.OtherFieldsOnlyTrimmed | src/pages/ClaimForm.jsx:22-26 | a field outside the chronic list, Gender and the amount is only trimmed or nulled |
| ClaimNormalize.TrimFixes | src/pages/ClaimForm.jsx:24-25 | the trim rule leaves an already trimmed, non-blank value unchanged |
| ClaimNormalize.ChronicIdempotent | src/pages/ClaimForm.jsx:27-31 | the chronic rule applied to its own result changes nothing |
| ClaimNormalize.GenderIdempotent | src/pages/ClaimForm.jsx:32-36 | the gender rule applied to its own result changes nothing |
| ClaimNormalize.AmountIdempotent | src/pages/ClaimForm.jsx:37-40 | the amount rule applied to its own result changes nothing |
| ClaimNormalize.FieldRuleIdempotent | src/pages/ClaimForm.jsx:21-42 | each field's rule is idempotent |
| ClaimNormalize.GenderOfCode | src/pages/ClaimForm.jsx:33-35 | "M" and "F" are truthy and denote themselves |
| ClaimNormalize.NormalizeIdempotent | src/pages/ClaimForm.jsx:21-42 | normalize(normalize(d)) = normalize(d) |
| ClaimNormalize.MissingFields | src/pages/ClaimForm.jsx:68-70 | the missing names are exactly the falsy required fields, in the order ClaimID, BeneID |
| ClaimNormalize.Join | src/pages/ClaimForm.jsx:71 | defines `miss.join(", ")`: the names in order with the separator between consecutive names, empty for no names |
| ClaimNormalize.ValidateClient | src/pages/ClaimForm.jsx:67-72 | no message iff ClaimID and BeneID are both truthy; otherwise the prefix followed by the missing names |
| ClaimNormalize.ValidateMessages | src/pages/ClaimForm.jsx:71 | the three possible messages, spelled out |
| ClaimNormalize.SubmitSingle | src/pages/ClaimForm.jsx:74-79 | the normalized form is posted iff it validates; otherwise the validation message is shown and nothing is posted |
| ClaimNormalize.PostedClaimHasIds | src/pages/ClaimForm.jsx:77-82 | a posted claim has a truthy ClaimID and BeneID |
| ClaimNormalize.SubmitError | src/pages/ClaimForm.jsx:87 | a submit failure shows the server error, else the exception message, else "undefined" |
| ClaimNormalize.SingleDone | src/pages/ClaimForm.jsx:81-90 | success clears ClaimID, BeneID, the amount and the diagnosis code and keeps the rest of the form; failure keeps the form and shows the error |
| BulkUpload.HandleCsv | src/pages/ClaimForm.jsx:100-104 | the rows held for upload are the parsed rows (none when the parser gives none), each normalized, in order; an empty result shows "CSV had no rows." |
| BulkUpload.HeldRowsNormalized | src/pages/ClaimForm.jsx:101 | every held row is a fixed point of `normalize` and carries every chronic-condition field |
| BulkUpload.FlattenCons | src/pages/ClaimForm.jsx:117-118 | concatenating a chunk in front of chunks concatenates in front of their flattening |
| BulkUpload.Chunks | src/pages/ClaimForm.jsx:115-118 | there are ceil(n/1000) chunks, each of 1 to 1000 rows |
| BulkUpload.FlattenChunks | src/pages/ClaimForm.jsx:115-118 | the chunks concatenated in order give back the rows, so no row is lost, repeated or reordered |
| BulkUpload.ChunkAt | src/pages/ClaimForm.jsx:117-118 | chunk k is `rows.slice(1000k, 1000k + 1000)` |
| BulkUpload.ChunkCountIff | src/pages/ClaimForm.jsx:117 | the loop index 1000k is below n exactly when k is below the chunk count |
| BulkUpload.InsertedOf | src/pages/ClaimForm.jsx:119 | defines `data?.inserted || 0`: the reply's count when present, 0 otherwise |
| BulkUpload.TotalInserted | src/pages/ClaimForm.jsx:116-120 | defines the running `inserted` total: the sum of the counts of the first k replies |
| BulkUpload.SubmitCsv | src/pages/ClaimForm.jsx:110-131 | with no rows nothing is posted. Otherwise the chunks posted are a prefix of the chunks, in order. The upload completes iff every chunk post succeeds; then all chunks were posted and `inserted` is the sum of the replies, absent counts as 0. A failure stops at the failed chunk and shows its error. The held rows are cleared after a complete upload and kept in full otherwise, so a retry posts chunks that were already inserted |
| BulkUpload.ThreeChunks | src/pages/ClaimForm.jsx:115-118 | 2500 rows go out as chunks of 1000, 1000 and 500 |
| Signup.MatchAt | src/pages/signup.jsx:21 | defines a match of `\S+@\S+\.\S+` anchored at a given `@` and `.` |
| Signup.EmailValid | src/pages/signup.jsx:21 | defines `emailValid`: the expression matches at some `@` and `.` |
| Signup.PasswordsMatch | src/pages/signup.jsx:22 | defines `pwMatch`: equal passwords of at least 6 characters |
| Signup.RoleReady | src/pages/signup.jsx:26 | defines the role clause: no role, "admin", or "provider" with a non-blank provider id |
| Signup.CanSubmit | src/pages/signup.jsx:23-27 | defines `canSubmit`: a valid email, matching passwords, a ready role and no request in flight |
| Signup.ScanEmail | src/pages/signup.jsx:21 | the scan finds a match iff some `@` has a non-space before it, a non-empty non-space run after it up to a `.`, and a non-space after the dot |
| Signup.CanSubmitNeeds | src/pages/signup.jsx:23-27 | `canSubmit` is false while loading, for an invalid email, and for mismatched or short passwords |
| Signup.RoleGate | src/pages/signup.jsx:26 | a provider needs a non-blank provider id; admin or no role needs none; any other role can never submit |
| Signup.ProviderIdSent | src/pages/signup.jsx:51 | the provider id sent is the trimmed id, or "P001" when blank |
| Signup.Submit | src/pages/signup.jsx:29-52 | the email is checked before the password, and the first failure shows its message with no request. Otherwise the body has the trimmed email, the password verbatim and the role, plus a provider id for providers only |
| Signup.SignupDone | src/pages/signup.jsx:53-63 | success redirects to the login page; failure shows the server error or "Signup failed"; loading ends false either way |
| Signup.CanSubmitPosts | src/pages/signup.jsx:23-52 | whenever `canSubmit` holds, `submit` posts, and a provider's id is sent trimmed |
| Routes.Split | src/App.jsx:16 | `split(".")` gives at least one piece, and no piece contains a dot |
| Routes.JoinSplit | src/App.jsx:16 | joining the pieces of a split with the separator gives back the token |
| Routes.SplitJoin | src/App.jsx:16 | splitting a join of dot-free pieces gives back the pieces |
| Routes.PayloadSegment | src/App.jsx:16-17 | a token `header.payload.signature` splits into its three segments, so the payload segment is decoded |
| Routes.GetUser | src/App.jsx:12-22 | no stored token, or an empty one, gives no user. So does a failed decoding. Otherwise the user has the decoded email and role, and the provider id, null when falsy |
| Routes.RequireRole | src/App.jsx:100-105 | no user redirects to "/login"; a required role the user lacks redirects to "/"; otherwise the children render |
| Routes.RouteFor | src/App.jsx:112-141 | defines the route table: each listed path with its screen and required role, every other path the fallback |
| Routes.Resolve | src/App.jsx:112-141 | unknown paths redirect to "/", open paths show their screen, guarded paths show their screen iff the user has the role |
| Routes.RoleTable | src/App.jsx:113-140 | "/admin" and "/organized-crime" need "admin"; "/provider" and "/submit" need "provider"; "/", "/login" and "/signup" are open |
| Routes.ScreensNeedRole | src/App.jsx:100-140 | admin screens are shown only to admins and provider screens only to providers; guarded paths without a user go to "/login" |
| Routes.RedirectsSettle | src/App.jsx:102-140 | every redirect lands on a path that shows a screen |

## Left out

- Rendering, CSS and the presentational components (`Pill`, `Button`, `Card`, `ErrorBanner`, table and drawer markup). They are presentation only.
- HTTP transport: the axios instance, the bearer-token interceptor, the dev-server proxy and URL joining. Every remote result is an input (`Remote<T>`). The decision request carries only the claim id, not the URL built from it.
- Browser I/O: `localStorage` is the `stored` parameter of `Routes.GetUser`. The delayed `window.location` change after signup is the `redirectTo` field. `scrollTo` and the `keydown` listener registration are left out; only the state change they trigger is modelled. The `console.error` logging in the scoring failure branch is left out; it changes no state.
- Token decoding (`atob`, `JSON.parse`) is the abstract partial function `decode`.
- CSV parsing (`Papa.parse` in `handleCsv`) is left out: its row list is the input of `BulkUpload.HandleCsv`. Its error callback and the `csvInfo` display counters are not modelled; they only set a message and a file name.
- `Number()` on strings is the abstract `parseNumber`, with `None` for NaN. Floating-point display (`probability * 100`, `toFixed`, `toLocaleDateString`) is left out.
- Message texts that interpolate a value or carry an emoji (`Submitted claim …`, `Bulk inserted … documents`) are the constructors of `ClaimNormalize.FormMsg`. Number formatting is not modelled.
- Real concurrency: the two load requests, and late responses, are applied sequentially, in the order the transitions are called.
- The loading phase of the review page's `load`: `Review.Mount` and `Review.Refresh` take both settled results at once, so the `loading: true` state between the start of the requests and their settlement is not a page state.
- `busy` flags of the claim form and the button `disabled` attributes. They gate user input, not state transitions.
- Text.ToLower: maps only ASCII letters. JavaScript lower-cases all of Unicode, so a query can match a non-ASCII claim field that the model does not match (e.g. the Kelvin sign).
- Text.ToUpper: maps only ASCII letters. No non-ASCII character upper-cases into M, MALE, F or FEMALE, so the gender classification is unaffected.
- Signup.PasswordsMatch: password length counts characters, while JavaScript counts UTF-16 code units. A password with characters outside the Basic Multilingual Plane counts shorter here, so a 3-character password of such characters is refused here and accepted by the page.
- Signup.CanSubmitNeeds: inherits the character count of `Signup.PasswordsMatch` in its length clause.
- Queue.KeepMatching: claim id, provider and diagnosis code are strings or missing. A numeric field, which the page would stringify, is not modelled.
- BulkUpload.SubmitCsv: an `inserted` reply field is an integer or missing. A non-numeric value, which JavaScript would concatenate into the total, is not modelled.
- Routes.RouteFor: paths are matched exactly. The router's case-insensitive matching and trailing-slash tolerance are not modelled.
- Routes.Resolve: inherits the exact path matching of `Routes.RouteFor`.
- The header's role-dependent navigation links, the organized-crime page, the unrouted admin dashboard and review-queue pages, the login page, the auth hook, the home page and the DOM bootstrap are not part of this model.

## Findings

| source | as written | input that shows it | evidently intended | confidence | as-written member | corrected member |
|---|---|---|---|---|---|---|
| src/pages/AdminReview.jsx:168 | a failed decision sets the panel to `{ ...p, busy: false }` even when `p` is null | open a claim, click Approve, press Escape before the reply, then the post fails: the panel becomes `{ busy: false }` and the drawer header reads `panel.claim.ClaimID` of undefined | a panel closed meanwhile stays closed (`p && { ...p, busy: false }`) | high, not executed | Review.ScoreReplyClearsBusy | src/pages/AdminReview.jsx:126-146 | a scoring reply or failure arriving while a decision is in flight leaves the panel not busy, so Approve and Reject are enabled again |
| Review.ClosedDecisionFailureBreaksPanel | Review.DecideFailedGuarded |
| src/pages/AdminReview.jsx:126 | the scoring reply installs a new panel whatever the panel is by then | open claim A, close the drawer (or open claim B) before A's score arrives: the drawer reopens showing A | apply the reply only while the panel still awaits that claim's score | medium, not executed | Review.LateScoreReopensPanel | Review.ScoreSucceededGuarded |
| src/pages/AdminReview.jsx:138 | the scoring failure installs a new panel whatever the panel is by then | open claim A, close the drawer (or open claim B) before A's scoring call fails: the drawer reopens showing A's error | apply the failure only while the panel still awaits that claim's score | medium, not executed | Review.LateScoreFailureReopensPanel | Review.ScoreFailedGuarded |

=== FILE: bulkupload.dfy ===
/**
  The CSV bulk upload of the claim form: the parsed rows are posted in
  consecutive slices of at most 1000 rows, one request after the other,
  and the `inserted` counts of the replies are added up.
 */
module BulkUpload {
  import opened Wrappers
  import opened Json
  import opened ClaimNormalize

  /** Concatenation of a sequence of chunks, in order. */
  function Flatten<R>(cs: seq<seq<R>>): seq<R> {
    if cs == [] then [] else cs[0] + Flatten(cs[1..])
  }

  lemma FlattenCons<R>(c: seq<R>, cs: seq<seq<R>>)
    ensures Flatten([c] + cs) == c + Flatten(cs)
  {
    assert ([c] + cs)[1..] == cs;
  }

  function Min(a: int, b: int): int {
    if a <= b then a else b
  }

  /** The number of chunks of `n` rows: n / 1000 rounded up. */
  function ChunkCount(n: nat): nat {
    (n + 999) / 1000
  }

  /** The slices `rows.slice(i, i + 1000)` for i = 0, 1000, 2000, ... */
  function Chunks<R>(rows: seq<R>): (r: seq<seq<R>>)
    ensures |r| == ChunkCount(|rows|)
    ensures forall k :: 0 <= k < |r| ==> 0 < |r[k]| <= 1000
    decreases |rows|
  {
    if |rows| == 0 then []
    else
      var n := Min(1000, |rows|);
      [rows[..n]] + Chunks(rows[n..])
  }

  /** The chunks, concatenated in order, are the rows: none is lost,
      repeated or reordered. */
  lemma {:induction false} FlattenChunks<R>(rows: seq<R>)
    ensures Flatten(Chunks(rows)) == rows
    decreases |rows|
  {
    if |rows| > 0 {
      var n := Min(1000, |rows|);
      FlattenChunks(rows[n..]);
      FlattenCons(rows[..n], Chunks(rows[n..]));
      assert rows[..n] + rows[n..] == rows;
    }
  }

  /** Chunk `k` is the slice of rows from 1000k to 1000(k+1), cut at the end. */
  lemma {:induction false} ChunkAt<R>(rows: seq<R>, k: nat)
    requires k < |Chunks(rows)|
    ensures 1000 * k < |rows|
    ensures Chunks(rows)[k] == rows[1000 * k .. Min(1000 * k + 1000, |rows|)]
    decreases k
  {
    var n := Min(1000, |rows|);
    var rest := rows[n..];
    assert Chunks(rows) == [rows[..n]] + Chunks(rest);
    if k > 0 {
      assert |Chunks(rest)| >= k;
      ChunkAt(rest, k - 1);
      ShiftSlice(rows, n, 1000 * (k - 1), Min(1000 * (k - 1) + 1000, |rest|));
    }
  }

  /** A slice of a suffix is a slice of the whole. */
  lemma ShiftSlice<R>(rows: seq<R>, n: nat, lo: nat, hi: nat)
    requires n <= |rows| && lo <= hi <= |rows| - n
    ensures rows[n..][lo..hi] == rows[n + lo..n + hi]
  {
  }

  /** `data?.inserted || 0` for one chunk's reply; a failed reply adds nothing. */
  function InsertedOf(reply: Remote<Option<int>>): int {
    match reply
    case Ok(Some(n)) => n
    case _ => 0
  }

  /** The sum of the first `count` replies' inserted counts. */
  function TotalInserted(reply: nat -> Remote<Option<int>>, count: nat): int {
    if count == 0 then 0 else TotalInserted(reply, count - 1) + InsertedOf(reply(count - 1))
  }

  /** Every one of the first `count` chunk posts succeeded. */
  predicate AllOk(reply: nat -> Remote<Option<int>>, count: nat) {
    forall k :: 0 <= k < count ==> reply(k).Ok?
  }

  // ------------------------------------------------------------ parsed rows

  const NoRowsMessage := "CSV had no rows."

  /** What `handleCsv` keeps once the file is parsed: the rows, and the
      message it shows. */
  datatype CsvLoaded = CsvLoaded(rows: seq<Doc>, msg: FormMsg)

  /** `handleCsv` after parsing: `data` is the parser's row list (`None` when
      it has none). Every row is normalized, in order; an empty result is
      reported, anything else clears the message. */
  function HandleCsv(data: Option<seq<Doc>>, parseNumber: string -> Option<real>): (r: CsvLoaded)
    ensures |r.rows| == |data.GetOr([])|
    ensures forall i :: 0 <= i < |r.rows| ==> r.rows[i] == Normalize(data.GetOr([])[i], parseNumber)
    ensures r.msg == if r.rows == [] then Failure(NoRowsMessage) else NoMsg
  {
    var parsed := data.GetOr([]);
    var rows := seq(|parsed|, i requires 0 <= i < |parsed| => Normalize(parsed[i], parseNumber));
    CsvLoaded(rows, if rows == [] then Failure(NoRowsMessage) else NoMsg)
  }

  /** The rows held for upload are already normalized: normalizing them again
      changes none, and each carries every chronic-condition field. */
  lemma HeldRowsNormalized(data: Option<seq<Doc>>, parseNumber: string -> Option<real>, i: nat)
    requires i < |HandleCsv(data, parseNumber).rows|
    ensures Normalize(HandleCsv(data, parseNumber).rows[i], parseNumber) == HandleCsv(data, parseNumber).rows[i]
    ensures ChronicSet <= HandleCsv(data, parseNumber).rows[i].Keys
  {
    NormalizeIdempotent(data.value[i], parseNumber);
  }

  /** The result of `submitCsv`. */
  datatype CsvOutcome = NoRows | Uploaded(inserted: int) | Aborted(msg: string)

  /** `submitCsv()` on the rows `handleCsv` holds: `reply(k)` is the settled
      result of posting chunk `k`. Returns the chunks posted, in order, how
      the upload ended, and the rows held afterwards: none after a complete
      upload, all of them otherwise, so a retry posts every chunk again. */
  method SubmitCsv<R>(rows: seq<R>, reply: nat -> Remote<Option<int>>) returns (sent: seq<seq<R>>, outcome: CsvOutcome, left: seq<R>)
    ensures outcome.NoRows? <==> |rows| == 0
    ensures outcome.NoRows? ==> sent == []
    ensures outcome.Uploaded? ==> left == []
    ensures !outcome.Uploaded? ==> left == rows
    ensures |sent| <= |Chunks(rows)| && sent == Chunks(rows)[..|sent|]
    ensures outcome.Uploaded? <==> |rows| > 0 && AllOk(reply, ChunkCount(|rows|))
    ensures outcome.Uploaded? ==> sent == Chunks(rows) && Flatten(sent) == rows
    ensures outcome.Uploaded? ==> outcome.inserted == TotalInserted(reply, |sent|)
    ensures outcome.Aborted? ==> 0 < |sent| && AllOk(reply, |sent| - 1) && reply(|sent| - 1).Err?
    ensures outcome.Aborted? ==> outcome.msg == SubmitError(reply(|sent| - 1).info)
  {
    sent := [];
    left := rows;
    if |rows| == 0 {
      return [], NoRows, rows;
    }
    var inserted := 0;
    var i := 0;
    while i < |rows|
      invariant i == 1000 * |sent|
      invariant |sent| <= |Chunks(rows)| && sent == Chunks(rows)[..|sent|]
      invariant AllOk(reply, |sent|)
      invariant inserted == TotalInserted(reply, |sent|)
      decreases |rows| - i
    {
      ChunkCountIff(|rows|, |sent|);
      ChunkAt(rows, |sent|);
      var chunk := rows[i..Min(i + 1000, |rows|)];
      assert Chunks(rows)[..|sent| + 1] == sent + [chunk];
      sent := sent + [chunk];
      var r := reply(|sent| - 1);
      if r.Err? {
        return sent, Aborted(SubmitError(r.info)), rows;
      }
      inserted := inserted + InsertedOf(r);
      i := i + 1000;
    }
    ChunkCountIff(|rows|, |sent|);
    assert sent == Chunks(rows);
    FlattenChunks(rows);
    outcome := Uploaded(inserted);
    left := [];
  }

  /** A chunk starts at 1000k exactly when k is below the chunk count. */
  lemma ChunkCountIff(n: nat, k: nat)
    ensures 1000 * k < n <==> k < ChunkCount(n)
  {
  }

  /** 2500 rows go out as chunks of 1000, 1000 and 500. */
  lemma ThreeChunks<R>(rows: seq<R>)
    requires |rows| == 2500
    ensures |Chunks(rows)| == 3
    ensures |Chunks(rows)[0]| == 1000 && |Chunks(rows)[1]| == 1000 && |Chunks(rows)[2]| == 500
  {
    ChunkAt(rows, 0);
    ChunkAt(rows, 1);
    ChunkAt(rows, 2);
  }
}

=== FILE: claimform.dfy ===
/**
  The claim submission form: `normalize`, the field-by-field canonicaliser
  applied to the single-claim form and to every parsed CSV row, the
  client-side required-field check, and the single-claim submit guard.

  A claim document is a map from field name to value. Converting a string
  to a number is the abstract `parseNumber`, `None` standing for NaN.
 */
module ClaimNormalize {
  import opened Wrappers
  import opened Json
  import opened Text

  type Doc = map<string, Value>

  const ChronicFields: seq<string> := [
    "ChronicCond_Alzheimer",
    "ChronicCond_Heartfailure",
    "ChronicCond_KidneyDisease",
    "ChronicCond_Cancer",
    "ChronicCond_ObstrPulmonary",
    "ChronicCond_Depression",
    "ChronicCond_Diabetes",
    "ChronicCond_IschemicHeart",
    "ChronicCond_Osteoporosis",
    "ChronicCond_rheumatoidarthritis",
    "ChronicCond_stroke"
  ]

  const GenderKey := "Gender"
  const AmountKey := "InscClaimAmtReimbursed"

  predicate IsChronic(k: string) {
    k in ChronicFields
  }

  /** The chronic-condition fields as a set of keys. */
  const ChronicSet: set<string> := set k | k in ChronicFields

  // ------------------------------------------------------------ per-value rules

  /** The first loop of `normalize`: strings are trimmed, and a string that
      is then empty becomes null. */
  function TrimValue(v: Value): (r: Value)
    ensures !v.Str? ==> r == v
    ensures v.Str? && Trim(v.s) == "" ==> r == Null
    ensures v.Str? && Trim(v.s) != "" ==> r == Str(Trim(v.s))
    ensures r.Str? ==> r.s != "" && Trim(r.s) == r.s
  {
    match v
    case Str(s) =>
      var t := Trim(s);
      TrimIdempotent(s);
      if t == "" then Null else Str(t)
    case _ => v
  }

  predicate IsYes(v: Value) {
    v == Str("1") || v == Num(1.0) || v == Bool(true) || v == Str("Yes")
  }

  predicate IsNo(v: Value) {
    v == Str("0") || v == Num(0.0) || v == Bool(false) || v == Str("No")
  }

  /** The chronic-condition rule: yes-like values become 1, no-like values 0,
      a null or absent value null, anything else is kept. */
  function ChronicValue(v: Option<Value>): (r: Value)
    ensures v.Some? && IsYes(v.value) ==> r == Num(1.0)
    ensures v.Some? && IsNo(v.value) ==> r == Num(0.0)
    ensures v.None? || v.value == Null ==> r == Null
    ensures v.Some? && !IsYes(v.value) && !IsNo(v.value) ==> r == v.value
  {
    if v.Some? && IsYes(v.value) then Num(1.0)
    else if v.Some? && IsNo(v.value) then Num(0.0)
    else if v.None? || v.value == Null then Null
    else v.value
  }

  /** The gender a value denotes: `String(v).toUpperCase()` is one of
      M, MALE, 1 or one of F, FEMALE, 2. `String(n)` of a number is "1" only
      for 1 and "2" only for 2, and never a letter; `String` of a boolean or
      null is never one of the six. */
  function GenderCode(v: Value): (r: Option<string>)
    ensures r.None? || r.value == "M" || r.value == "F"
    ensures v.Num? ==> (r == Some("M") <==> v.n == 1.0) && (r == Some("F") <==> v.n == 2.0)
    ensures v.Bool? || v.Null? ==> r.None?
    ensures v.Str? ==> (r == Some("M") <==> ToUpper(v.s) in ["M", "MALE", "1"])
    ensures v.Str? ==> (r == Some("F") <==> ToUpper(v.s) in ["F", "FEMALE", "2"])
  {
    match v
    case Str(s) =>
      var g := ToUpper(s);
      if g == "M" || g == "MALE" || g == "1" then Some("M")
      else if g == "F" || g == "FEMALE" || g == "2" then Some("F")
      else None
    case Num(n) =>
      if n == 1.0 then Some("M") else if n == 2.0 then Some("F") else None
    case _ => None
  }

  /** Some spellings and their codes; case does not matter. */
  lemma GenderSpellings()
    ensures GenderCode(Str("male")) == GenderCode(Str("Male")) == GenderCode(Str("1")) == Some("M")
    ensures GenderCode(Str("female")) == GenderCode(Str("F")) == GenderCode(Str("2")) == Some("F")
    ensures GenderCode(Str("x")) == GenderCode(Str("U")) == None
  {
    assert ToUpper("male") == ToUpper("Male") == "MALE";
    assert ToUpper("1") == "1";
    assert ToUpper("female") == "FEMALE";
    assert ToUpper("F") == "F" && ToUpper("2") == "2";
    assert ToUpper("x") == "X" && ToUpper("U") == "U";
  }

  /** The gender rule: a truthy value that denotes a gender is replaced by
      its one-letter code, anything else is kept. */
  function GenderValue(v: Value): (r: Value)
    ensures Truthy(v) && GenderCode(v).Some? ==> r == Str(GenderCode(v).value)
    ensures !Truthy(v) || GenderCode(v).None? ==> r == v
  {
    if Truthy(v) && GenderCode(v).Some? then Str(GenderCode(v).value) else v
  }

  /** `Number(v)` for a non-null value; `None` stands for NaN. */
  function ToNumber(v: Value, parseNumber: string -> Option<real>): (r: Option<real>)
    ensures v.Num? ==> r == Some(v.n)
    ensures v.Str? ==> r == parseNumber(v.s)
    ensures v.Bool? ==> r == Some(if v.b then 1.0 else 0.0)
  {
    match v
    case Null => Some(0.0)
    case Bool(b) => Some(if b then 1.0 else 0.0)
    case Num(n) => Some(n)
    case Str(s) => parseNumber(s)
  }

  /** The amount rule: a non-null value is replaced by its numeric
      conversion unless that is NaN. */
  function AmountValue(v: Value, parseNumber: string -> Option<real>): (r: Value)
    ensures v == Null ==> r == Null
    ensures v != Null && ToNumber(v, parseNumber).Some? ==> r == Num(ToNumber(v, parseNumber).value)
    ensures v != Null && ToNumber(v, parseNumber).None? ==> r == v
  {
    if v == Null then v
    else match ToNumber(v, parseNumber)
      case Some(n) => Num(n)
      case None => v
  }

  // ------------------------------------------------------------ the passes

  /** `for (const k in d)`: trim every field, null the empty ones. */
  function TrimPass(d: Doc): (r: Doc)
    ensures r.Keys == d.Keys
    ensures forall k :: k in d ==> r[k] == TrimValue(d[k])
  {
    map k | k in d :: TrimValue(d[k])
  }

  /** `CHRONIC_FIELDS.forEach`: every chronic field is mapped, and an absent
      one is added as null. */
  function ChronicPass(d: Doc): (r: Doc)
    ensures r.Keys == d.Keys + ChronicSet
    ensures forall k :: k in r && IsChronic(k) ==> r[k] == ChronicValue(Field(d, k))
    ensures forall k :: k in d && !IsChronic(k) ==> r[k] == d[k]
  {
    map k | k in d.Keys + ChronicSet :: if IsChronic(k) then ChronicValue(Field(d, k)) else d[k]
  }

  /** `if (d.Gender) ...`: only a present Gender field can change. */
  function GenderPass(d: Doc): (r: Doc)
    ensures r.Keys == d.Keys
    ensures GenderKey in d ==> r[GenderKey] == GenderValue(d[GenderKey])
    ensures forall k :: k in d && k != GenderKey ==> r[k] == d[k]
  {
    if GenderKey in d then d[GenderKey := GenderValue(d[GenderKey])] else d
  }

  /** `if (d.InscClaimAmtReimbursed != null) ...`. */
  function AmountPass(d: Doc, parseNumber: string -> Option<real>): (r: Doc)
    ensures r.Keys == d.Keys
    ensures AmountKey in d ==> r[AmountKey] == AmountValue(d[AmountKey], parseNumber)
    ensures forall k :: k in d && k != AmountKey ==> r[k] == d[k]
  {
    if AmountKey in d then d[AmountKey := AmountValue(d[AmountKey], parseNumber)] else d
  }

  /** `normalize(doc)`: the four passes in the order the page applies them. */
  function Normalize(d: Doc, parseNumber: string -> Option<real>): (r: Doc)
    ensures r.Keys == d.Keys + ChronicSet
    ensures forall k :: k in r ==> r[k] == FieldRule(k, Field(d, k), parseNumber)
  {
    PassesCompose(d, parseNumber);
    AmountPass(GenderPass(ChronicPass(TrimPass(d))), parseNumber)
  }

  /** The four passes, composed, keep every key, add the chronic fields, and
      apply the field rule at every key. */
  lemma PassesCompose(d: Doc, parseNumber: string -> Option<real>)
    ensures AmountPass(GenderPass(ChronicPass(TrimPass(d))), parseNumber).Keys == d.Keys + ChronicSet
    ensures forall k :: k in AmountPass(GenderPass(ChronicPass(TrimPass(d))), parseNumber) ==>
      AmountPass(GenderPass(ChronicPass(TrimPass(d))), parseNumber)[k] == FieldRule(k, Field(d, k), parseNumber)
  {
    var r := AmountPass(GenderPass(ChronicPass(TrimPass(d))), parseNumber);
    forall k | k in r ensures r[k] == FieldRule(k, Field(d, k), parseNumber) {
      PassesAt(d, parseNumber, k);
    }
  }

  /** The four passes agree with the field rule at one key. */
  lemma PassesAt(d: Doc, parseNumber: string -> Option<real>, k: string)
    requires k in AmountPass(GenderPass(ChronicPass(TrimPass(d))), parseNumber)
    ensures k in d || IsChronic(k)
    ensures AmountPass(GenderPass(ChronicPass(TrimPass(d))), parseNumber)[k] == FieldRule(k, Field(d, k), parseNumber)
  {
    var t := TrimPass(d);
    var c := ChronicPass(t);
    var g := GenderPass(c);
    var a := AmountPass(g, parseNumber);
    TrimAt(d, k);
    AmountAt(g, parseNumber, k);
    GenderAt(c, k);
    ChronicAt(t, k);
    StepsMakeRule(k, Field(d, k), Field(t, k), c[k], g[k], a[k], parseNumber);
  }

  lemma TrimAt(d: Doc, k: string)
    ensures Field(TrimPass(d), k) == if k in d then Some(TrimValue(d[k])) else None
  {
  }

  lemma ChronicAt(t: Doc, k: string)
    ensures k in ChronicPass(t) <==> k in t || IsChronic(k)
    ensures k in ChronicPass(t) && IsChronic(k) ==> ChronicPass(t)[k] == ChronicValue(Field(t, k))
    ensures k in t && !IsChronic(k) ==> ChronicPass(t)[k] == t[k]
  {
  }

  lemma GenderAt(c: Doc, k: string)
    ensures k in GenderPass(c) <==> k in c
    ensures k in c ==> GenderPass(c)[k] == if k == GenderKey then GenderValue(c[k]) else c[k]
  {
  }

  lemma AmountAt(g: Doc, parseNumber: string -> Option<real>, k: string)
    ensures k in AmountPass(g, parseNumber) <==> k in g
    ensures k in g ==> AmountPass(g, parseNumber)[k] == if k == AmountKey then AmountValue(g[k], parseNumber) else g[k]
  {
  }

  /** The value of one key after each pass, composed, is the field rule. */
  lemma StepsMakeRule(k: string, dv: Option<Value>, tv: Option<Value>, cv: Value, gv: Value, av: Value,
                      parseNumber: string -> Option<real>)
    requires dv.Some? || IsChronic(k)
    requires tv == if dv.Some? then Some(TrimValue(dv.value)) else None
    requires cv == if IsChronic(k) then ChronicValue(tv) else tv.value
    requires gv == if k == GenderKey then GenderValue(cv) else cv
    requires av == if k == AmountKey then AmountValue(gv, parseNumber) else gv
    ensures av == FieldRule(k, dv, parseNumber)
  {
    NotChronic();
  }

  /** Gender and the amount are not chronic fields. */
  lemma NotChronic()
    ensures !IsChronic(GenderKey) && !IsChronic(AmountKey)
  {
  }

  // ------------------------------------------------------------ field by field

  /** What `normalize` does to the field `k`, whose value is `v` (`None`
      when the key is absent), taken one field at a time. */
  function FieldRule(k: string, v: Option<Value>, parseNumber: string -> Option<real>): Value
    requires v.Some? || IsChronic(k)
  {
    var trimmed := if v.Some? then Some(TrimValue(v.value)) else None;
    if IsChronic(k) then ChronicValue(trimmed)
    else if k == GenderKey then GenderValue(trimmed.value)
    else if k == AmountKey then AmountValue(trimmed.value, parseNumber)
    else trimmed.value
  }

  /** `normalize` removes no key, and adds exactly the absent chronic fields. */
  lemma NormalizeKeys(d: Doc, parseNumber: string -> Option<real>)
    ensures d.Keys <= Normalize(d, parseNumber).Keys
    ensures forall k :: k in Normalize(d, parseNumber) && k !in d ==> IsChronic(k) && Normalize(d, parseNumber)[k] == Null
  {
  }

  /** A field outside the chronic list, Gender and the amount is only trimmed
      or nulled. */
  lemma OtherFieldsOnlyTrimmed(d: Doc, parseNumber: string -> Option<real>, k: string)
    requires k in d && !IsChronic(k) && k != GenderKey && k != AmountKey
    ensures Normalize(d, parseNumber)[k] == TrimValue(d[k])
  {
  }

  /** Every value the field rule produces is already trimmed. */
  lemma TrimFixes(v: Value)
    requires v.Str? ==> v.s != "" && Trim(v.s) == v.s
    ensures TrimValue(v) == v
  {
  }

  lemma ChronicIdempotent(v: Option<Value>)
    requires v.None? || TrimValue(v.value) == v.value
    ensures TrimValue(ChronicValue(v)) == ChronicValue(v)
    ensures ChronicValue(Some(ChronicValue(v))) == ChronicValue(v)
  {
  }

  lemma GenderIdempotent(v: Value)
    requires TrimValue(v) == v
    ensures TrimValue(GenderValue(v)) == GenderValue(v)
    ensures GenderValue(GenderValue(v)) == GenderValue(v)
  {
    if Truthy(v) && GenderCode(v).Some? {
      CodeIsFixed(GenderCode(v).value);
    }
  }

  /** A one-letter code is left alone by the trim and gender rules. */
  lemma CodeIsFixed(c: string)
    requires c == "M" || c == "F"
    ensures TrimValue(Str(c)) == Str(c) && GenderValue(Str(c)) == Str(c)
  {
    GenderOfCode(c);
    TrimOfTrimmed(c);
  }

  lemma AmountIdempotent(v: Value, parseNumber: string -> Option<real>)
    requires TrimValue(v) == v
    ensures TrimValue(AmountValue(v, parseNumber)) == AmountValue(v, parseNumber)
    ensures AmountValue(AmountValue(v, parseNumber), parseNumber) == AmountValue(v, parseNumber)
  {
  }

  /** One field's rule is idempotent. */
  lemma FieldRuleIdempotent(k: string, v: Option<Value>, parseNumber: string -> Option<real>)
    requires v.Some? || IsChronic(k)
    ensures FieldRule(k, Some(FieldRule(k, v, parseNumber)), parseNumber) == FieldRule(k, v, parseNumber)
  {
    var trimmed := if v.Some? then Some(TrimValue(v.value)) else None;
    if v.Some? {
      TrimFixes(TrimValue(v.value));
    }
    if IsChronic(k) {
      ChronicIdempotent(trimmed);
    } else if k == GenderKey {
      GenderIdempotent(trimmed.value);
    } else if k == AmountKey {
      AmountIdempotent(trimmed.value, parseNumber);
    }
  }

  /** A one-letter gender code denotes itself. */
  lemma GenderOfCode(c: string)
    requires c == "M" || c == "F"
    ensures Truthy(Str(c)) && GenderCode(Str(c)) == Some(c)
  {
    assert ToUpper("M") == "M";
    assert ToUpper("F") == "F";
  }

  /** `normalize` is idempotent. */
  lemma NormalizeIdempotent(d: Doc, parseNumber: string -> Option<real>)
    ensures Normalize(Normalize(d, parseNumber), parseNumber) == Normalize(d, parseNumber)
  {
    var once := Normalize(d, parseNumber);
    var twice := Normalize(once, parseNumber);
    assert twice.Keys == once.Keys;
    forall k | k in once ensures twice[k] == once[k] {
      FieldRuleIdempotent(k, Field(d, k), parseNumber);
    }
  }

  // ------------------------------------------------------------ validation

  const RequiredFields: seq<string> := ["ClaimID", "BeneID"]

  /** The required fields that are missing (falsy), in the order listed. */
  function MissingFields(d: Doc): (r: seq<string>)
    ensures forall f :: f in r <==> f in RequiredFields && !Present(Field(d, f))
    ensures |r| <= |RequiredFields|
    ensures r == [] || r == ["ClaimID"] || r == ["BeneID"] || r == ["ClaimID", "BeneID"]
  {
    (if Present(Field(d, "ClaimID")) then [] else ["ClaimID"])
      + (if Present(Field(d, "BeneID")) then [] else ["BeneID"])
  }

  /** `miss.join(", ")`. */
  function Join(names: seq<string>, sep: string): string {
    if |names| == 0 then ""
    else if |names| == 1 then names[0]
    else names[0] + sep + Join(names[1..], sep)
  }

  const MissingPrefix := "Missing required: "

  /** `validateClient(d)`: no message iff ClaimID and BeneID are both truthy;
      otherwise the missing names, in order, after the prefix. */
  function ValidateClient(d: Doc): (r: Option<string>)
    ensures r.None? <==> Present(Field(d, "ClaimID")) && Present(Field(d, "BeneID"))
    ensures r.Some? ==> r.value == MissingPrefix + Join(MissingFields(d), ", ")
  {
    var miss := MissingFields(d);
    if |miss| > 0 then Some(MissingPrefix + Join(miss, ", ")) else None
  }

  /** The three possible messages. */
  lemma ValidateMessages(d: Doc)
    ensures !Present(Field(d, "ClaimID")) && !Present(Field(d, "BeneID")) ==> ValidateClient(d) == Some("Missing required: ClaimID, BeneID")
    ensures !Present(Field(d, "ClaimID")) && Present(Field(d, "BeneID")) ==> ValidateClient(d) == Some("Missing required: ClaimID")
    ensures Present(Field(d, "ClaimID")) && !Present(Field(d, "BeneID")) ==> ValidateClient(d) == Some("Missing required: BeneID")
  {
    var both: seq<string> := ["ClaimID", "BeneID"];
    assert both[1..] == ["BeneID"];
    assert Join(both, ", ") == "ClaimID, BeneID";
    assert MissingPrefix + "ClaimID, BeneID" == "Missing required: ClaimID, BeneID";
    assert MissingPrefix + "ClaimID" == "Missing required: ClaimID";
    assert MissingPrefix + "BeneID" == "Missing required: BeneID";
  }

  // ------------------------------------------------------------ single submit

  /** A message line of the form; the emoji prefix is presentation. */
  datatype FormMsg = NoMsg | Failure(text: string) | Submitted(claimId: Option<Value>) | BulkInserted(count: int)

  /** The synchronous part of `submitSingle`: either a validation message and
      no request, or the normalized form posted. */
  datatype SingleStep = Blocked(msg: FormMsg) | Post(payload: Doc)

  function SubmitSingle(form: Doc, parseNumber: string -> Option<real>): (r: SingleStep)
    ensures r.Post? <==> ValidateClient(Normalize(form, parseNumber)).None?
    ensures r.Post? ==> r.payload == Normalize(form, parseNumber)
    ensures r.Blocked? ==> r.msg == Failure(ValidateClient(Normalize(form, parseNumber)).value)
  {
    var payload := Normalize(form, parseNumber);
    match ValidateClient(payload)
    case Some(err) => Blocked(Failure(err))
    case None => Post(payload)
  }

  /** A submitted claim always has a truthy ClaimID and BeneID. */
  lemma PostedClaimHasIds(form: Doc, parseNumber: string -> Option<real>)
    requires SubmitSingle(form, parseNumber).Post?
    ensures var p := SubmitSingle(form, parseNumber).payload;
      "ClaimID" in p && Truthy(p["ClaimID"]) && "BeneID" in p && Truthy(p["BeneID"])
  {
  }

  /** The failure text of a submit: `e?.response?.data?.error || e.message`,
      which interpolates as "undefined" when both are missing. */
  function SubmitError(e: ErrorInfo): (r: string)
    ensures HasText(e.serverError) ==> r == e.serverError.value
    ensures !HasText(e.serverError) && e.message.Some? ==> r == e.message.value
    ensures !HasText(e.serverError) && e.message.None? ==> r == "undefined"
  {
    if HasText(e.serverError) then e.serverError.value
    else if e.message.Some? then e.message.value
    else "undefined"
  }

  /** The fields the form clears after a successful single submit. */
  const ClearedFields: set<string> := {"ClaimID", "BeneID", AmountKey, "DiagnosisGroupCode"}

  /** `submitSingle` after the post: on success four fields are cleared and
      the rest of the form is kept; on failure the form is kept. */
  function SingleDone(form: Doc, payload: Doc, outcome: Remote<()>): (r: (Doc, FormMsg))
    ensures outcome.Ok? ==> r.1 == Submitted(Field(payload, "ClaimID"))
    ensures outcome.Ok? ==> r.0.Keys == form.Keys + ClearedFields
    ensures outcome.Ok? ==> forall k :: k in ClearedFields ==> r.0[k] == Str("")
    ensures outcome.Ok? ==> forall k :: k in form && k !in ClearedFields ==> r.0[k] == form[k]
    ensures outcome.Err? ==> r == (form, Failure(SubmitError(outcome.info)))
  {
    match outcome
    case Ok(_) =>
      (form["ClaimID" := Str("")]["BeneID" := Str("")][AmountKey := Str("")]["DiagnosisGroupCode" := Str("")],
       Submitted(Field(payload, "ClaimID")))
    case Err(e) => (form, Failure(SubmitError(e)))
  }
}

=== FILE: json.dfy ===
/**
  The JavaScript values the pages handle, their truthiness, and the
  outcome of a remote call.

  A field value is `Null`, a boolean, a number or a string; an absent key
  (`undefined`) is the absence of the key in a map, or `None` in a record.
  NaN is not a value here: a conversion that would give NaN gives `None`.
 */
module Json {
  import opened Wrappers

  datatype Value = Null | Bool(b: bool) | Num(n: real) | Str(s: string)

  /** JavaScript truthiness: `null`, `false`, `0` and `""` are falsy. */
  predicate Truthy(v: Value) {
    match v
    case Null => false
    case Bool(b) => b
    case Num(n) => n != 0.0
    case Str(s) => s != ""
  }

  /** `obj[k]` on a JSON object: the value, or `undefined` for a missing key. */
  function Field(obj: map<string, Value>, k: string): Option<Value> {
    if k in obj then Some(obj[k]) else None
  }

  /** Truthiness of a possibly absent field; `undefined` is falsy. */
  predicate Present(v: Option<Value>) {
    v.Some? && Truthy(v.value)
  }

  /** `x ?? d`: the value unless it is `null` or `undefined`. */
  function Coalesce(v: Option<Value>, d: Value): (r: Value)
    ensures v.Some? && v.value != Null ==> r == v.value
    ensures v.None? || v.value == Null ==> r == d
  {
    if v.Some? && v.value != Null then v.value else d
  }

  /** A truthy string field: present and non-empty. */
  predicate HasText(s: Option<string>) {
    s.Some? && s.value != ""
  }

  /** `a || b`: the first string if it is truthy, else the second. */
  function OrElse(a: Option<string>, b: string): (r: string)
    ensures HasText(a) ==> r == a.value
    ensures !HasText(a) ==> r == b
  {
    if HasText(a) then a.value else b
  }

  /** What a failed request exposes: `e.response.data.error`,
      `e.response.data.detail` and `e.message`, each possibly absent. */
  datatype ErrorInfo = ErrorInfo(
    serverError: Option<string>,
    serverDetail: Option<string>,
    message: Option<string>)

  /** The result of one awaited remote call (a settled promise). */
  datatype Remote<+T> = Ok(data: T) | Err(info: ErrorInfo)

  /** `e?.response?.data?.error || e?.message || fallback`: the most specific
      message a failure carries, ignoring the detail field. */
  function ErrorOrMessage(e: ErrorInfo, fallback: string): (r: string)
    requires fallback != ""
    ensures r != ""
    ensures HasText(e.serverError) ==> r == e.serverError.value
    ensures !HasText(e.serverError) && HasText(e.message) ==> r == e.message.value
    ensures !HasText(e.serverError) && !HasText(e.message) ==> r == fallback
  {
    OrElse(e.serverError, OrElse(e.message, fallback))
  }
}

=== FILE: queue.dfy ===
/**
  The admin review queue: loading the pending claims and the summary
  counters as two independently settled requests, the free-text filter
  over the loaded claims, and the counters shown for the summary.
 */
module Queue {
  import opened Wrappers
  import opened Json
  import opened Text

  /** A pending claim as the queue lists it; every field may be missing. */
  datatype Claim = Claim(
    claimId: Option<string>,
    provider: Option<string>,
    startDate: Option<string>,
    amount: Option<real>,
    diagnosisGroupCode: Option<string>,
    status: Option<string>)

  /** The `overall` object of the admin summary; each counter may be missing. */
  datatype Counters = Counters(total: Option<int>, pending: Option<int>, approved: Option<int>, rejected: Option<int>)

  /** The admin summary body. */
  datatype Summary = Summary(overall: Option<Counters>)

  /** The four counters as displayed. */
  datatype Shown = Shown(total: int, pending: int, approved: int, rejected: int)

  /** The loaded slice of the review page: the claim list, the last summary
      snapshot, the page-level error banner and the loading flag. */
  datatype QueueState = QueueState(items: seq<Claim>, summary: Option<Summary>, err: string, loading: bool)

  const PendingFallback := "Failed to load pending claims"
  const SummaryFallback := "Failed to load admin summary"

  /** The functional update `setErr(e => e || msg)`: keep an earlier message. */
  function KeepFirst(e: string, msg: string): string {
    if e != "" then e else msg
  }

  /** `load()`: the error banner is cleared, then the two settled results are
      applied in order, pending claims first. */
  function Load(st: QueueState, pend: Remote<Option<seq<Claim>>>, sum: Remote<Option<Summary>>): (r: QueueState)
    ensures !r.loading
    ensures pend.Ok? ==> r.items == pend.data.GetOr([])
    ensures pend.Err? ==> r.items == []
    ensures sum.Ok? ==> r.summary == sum.data
    ensures sum.Err? ==> r.summary == st.summary
    ensures r.err == "" <==> pend.Ok? && sum.Ok?
    ensures pend.Err? ==> r.err == ErrorOrMessage(pend.info, PendingFallback)
    ensures pend.Ok? && sum.Err? ==> r.err == ErrorOrMessage(sum.info, SummaryFallback)
  {
    var cleared := st.(loading := true, err := "");
    var afterPending :=
      match pend
      case Ok(data) => cleared.(items := data.GetOr([]))
      case Err(e) => cleared.(items := [], err := KeepFirst(cleared.err, ErrorOrMessage(e, PendingFallback)));
    var afterSummary :=
      match sum
      case Ok(data) => afterPending.(summary := data)
      case Err(e) => afterPending.(err := KeepFirst(afterPending.err, ErrorOrMessage(e, SummaryFallback)));
    afterSummary.(loading := false)
  }

  /** `overall`: a missing summary or a missing `overall` reads as zeros, and
      each missing counter reads as 0. */
  function DisplayCounters(summary: Option<Summary>): (r: Shown)
    ensures summary.None? || summary.value.overall.None? ==> r == Shown(0, 0, 0, 0)
    ensures summary.Some? && summary.value.overall.Some? ==>
      var o := summary.value.overall.value;
      && r.total == o.total.GetOr(0) && r.pending == o.pending.GetOr(0)
      && r.approved == o.approved.GetOr(0) && r.rejected == o.rejected.GetOr(0)
  {
    var o := if summary.Some? && summary.value.overall.Some? then summary.value.overall.value
             else Counters(Some(0), Some(0), Some(0), Some(0));
    Shown(o.total.GetOr(0), o.pending.GetOr(0), o.approved.GetOr(0), o.rejected.GetOr(0))
  }

  /** A failed pending load with a successful summary load leaves an empty
      queue, the fetched counters and exactly the pending-claims message. */
  lemma PendingFailureKeepsSummary(st: QueueState, e: ErrorInfo, data: Option<Summary>)
    ensures var r := Load(st, Err(e), Ok(data));
      && r.items == [] && DisplayCounters(r.summary) == DisplayCounters(data)
      && r.err == ErrorOrMessage(e, PendingFallback) && r.err != ""
  {
  }

  /** When both loads fail the pending-claims message is the one kept. */
  lemma FirstFailureWins(st: QueueState, e1: ErrorInfo, e2: ErrorInfo)
    ensures Load(st, Err(e1), Err(e2)).err == ErrorOrMessage(e1, PendingFallback)
    ensures Load(st, Err(e1), Err(e2)).summary == st.summary
  {
  }

  // ---------------------------------------------------------------- filter

  /** `String(s ?? "")` for a text field. */
  function FieldText(f: Option<string>): string {
    f.GetOr("")
  }

  /** A claim matches a (trimmed, lower-cased) query when one of its id,
      provider or diagnosis group code, lower-cased, contains it. */
  predicate Matches(c: Claim, t: string) {
    || Contains(ToLower(FieldText(c.claimId)), t)
    || Contains(ToLower(FieldText(c.provider)), t)
    || Contains(ToLower(FieldText(c.diagnosisGroupCode)), t)
  }

  /** `items.filter(...)`: the matching claims, in their original order. */
  function KeepMatching(items: seq<Claim>, t: string): (r: seq<Claim>)
    ensures |r| <= |items|
    ensures forall c :: c in r <==> c in items && Matches(c, t)
  {
    if items == [] then []
    else (if Matches(items[0], t) then [items[0]] else []) + KeepMatching(items[1..], t)
  }

  /** The query as the filter uses it: `q.trim().toLowerCase()`. */
  function QueryKey(q: string): string {
    ToLower(Trim(q))
  }

  /** The `filtered` view of the queue for the search box contents `q`. */
  function Filtered(q: string, items: seq<Claim>): (r: seq<Claim>)
    ensures QueryKey(q) == "" ==> r == items
    ensures |r| <= |items|
    ensures QueryKey(q) != "" ==> forall c :: c in r <==> c in items && Matches(c, QueryKey(q))
  {
    var t := QueryKey(q);
    if t == "" then items else KeepMatching(items, t)
  }

  /** Filtering keeps relative order: it distributes over concatenation. */
  lemma {:induction false} KeepMatchingConcat(a: seq<Claim>, b: seq<Claim>, t: string)
    ensures KeepMatching(a + b, t) == KeepMatching(a, t) + KeepMatching(b, t)
  {
    if a == [] {
      assert a + b == b;
    } else {
      assert (a + b)[1..] == a[1..] + b;
      KeepMatchingConcat(a[1..], b, t);
    }
  }

  /** The filtered view of a concatenation is the concatenation of the views. */
  lemma FilteredConcat(q: string, a: seq<Claim>, b: seq<Claim>)
    ensures Filtered(q, a + b) == Filtered(q, a) + Filtered(q, b)
  {
    if QueryKey(q) != "" {
      KeepMatchingConcat(a, b, QueryKey(q));
    }
  }

  /** Re-filtering the filtered view with the same query changes nothing. */
  lemma {:induction false} KeepMatchingIdempotent(items: seq<Claim>, t: string)
    ensures KeepMatching(KeepMatching(items, t), t) == KeepMatching(items, t)
  {
    if items != [] {
      var head := if Matches(items[0], t) then [items[0]] else [];
      KeepMatchingIdempotent(items[1..], t);
      KeepMatchingConcat(head, KeepMatching(items[1..], t), t);
      if Matches(items[0], t) {
        assert KeepMatching(head, t) == head by {
          assert head[1..] == [];
        }
      }
    }
  }

  /** Filtering is idempotent. */
  lemma FilteredIdempotent(q: string, items: seq<Claim>)
    ensures Filtered(q, Filtered(q, items)) == Filtered(q, items)
  {
    if QueryKey(q) != "" {
      KeepMatchingIdempotent(items, QueryKey(q));
    }
  }

  /** A claim whose lower-cased id is exactly the query is always listed. */
  lemma ExactIdIsKept(q: string, items: seq<Claim>, c: Claim)
    requires c in items
    requires ToLower(FieldText(c.claimId)) == QueryKey(q)
    ensures c in Filtered(q, items)
  {
    assert OccursAt(QueryKey(q), QueryKey(q), 0);
  }

  /** A query made only of whitespace shows the whole queue. */
  lemma BlankQueryShowsAll(q: string, items: seq<Claim>)
    requires forall i :: 0 <= i < |q| ==> IsSpace(q[i])
    ensures Filtered(q, items) == items
  {
  }
}

=== FILE: review.dfy ===
/**
  The review drawer of the admin page: a single optional panel holding the
  claim under review, the lifecycle of its scoring request, a busy flag for
  an in-flight decision and a raw-response toggle; and the decision action
  that posts the operator's verdict.

  `openReview` and `decide` are split at their `await`: the part before it
  is a transition taking the page, the part after it a transition taking the
  settled remote result. `load` is one transition taking both settled
  results of its two parallel requests, so its loading phase is not a page
  state. Transitions are applied in the order the results arrive; nothing
  correlates a response with the panel that asked for it.
 */
module Review {
  import opened Wrappers
  import opened Json
  import opened Queue

  /** An opaque JSON payload kept for display only. */
  datatype Blob = Blob(text: string)

  /** One ranked feature of a scoring explanation. */
  datatype Feature = Feature(name: string, value: Value, impact: real)

  /** The body of a successful scoring response; every field may be missing
      (a null body is the body with every field missing). */
  datatype ScoreBody = ScoreBody(
    predictedLabel: Option<Value>,
    prediction: Option<Value>,
    probability: Option<Value>,
    topFeatures: Option<seq<Feature>>,
    aiExplanation: Option<Value>,
    raw: Option<Blob>,
    rawClaim: Option<Claim>,
    payloadSent: Option<Blob>,
    aggregatedData: Option<Blob>)

  /** The `mlResponse` object the panel displays. */
  datatype MlResponse = MlResponse(
    predictedLabel: Value,
    prediction: Option<Value>,
    score: Option<Value>,
    probability: Option<Value>,
    topFeatures: seq<Feature>,
    aiExplanation: Option<Value>,
    raw: Option<Blob>)

  /** The `scoring` slot of the panel. */
  datatype Scoring =
    | ScoringLoading
    | Scored(ml: MlResponse, payloadSent: Option<Blob>, aggregatedData: Option<Blob>)
    | ScoringFailed(error: string)

  /** The panel object. Its `claim` and `scoring` are optional because the
      page can build a panel object by spreading a closed (null) panel. */
  datatype Panel = Panel(claim: Option<Claim>, scoring: Option<Scoring>, busy: bool, showRaw: bool)

  /** The whole review page: the loaded queue, the search box, the panel and
      the one-shot flag that guards the initial load. */
  datatype Page = Page(queue: QueueState, query: string, panel: Option<Panel>, loaded: bool)

  /** An open panel as the page builds it: it has a claim and a scoring state.
      Rendering needs only the claim, which the drawer header reads as
      `panel.claim.ClaimID`; the scoring is read through optional chaining. */
  predicate WellFormed(p: Page) {
    p.panel.None? || (p.panel.value.claim.Some? && p.panel.value.scoring.Some?)
  }

  // ------------------------------------------------------------ page load

  /** The mount effect: the first run marks the page loaded and loads the
      queue; a repeated run (a re-invoked effect) does nothing. */
  function Mount(p: Page, pend: Remote<Option<seq<Claim>>>, sum: Remote<Option<Summary>>): (r: Page)
    ensures r.loaded
    ensures p.loaded ==> r == p
    ensures !p.loaded ==> r == p.(loaded := true, queue := Load(p.queue, pend, sum))
  {
    if p.loaded then p else p.(loaded := true, queue := Load(p.queue, pend, sum))
  }

  /** However the effect is re-run, the queue is loaded exactly once. */
  lemma MountOnce(p: Page, pend: Remote<Option<seq<Claim>>>, sum: Remote<Option<Summary>>,
                  pend2: Remote<Option<seq<Claim>>>, sum2: Remote<Option<Summary>>)
    requires !p.loaded
    ensures Mount(Mount(p, pend, sum), pend2, sum2).queue == Load(p.queue, pend, sum)
  {
  }

  /** The Refresh buttons: reload the queue, leaving the panel alone. */
  function Refresh(p: Page, pend: Remote<Option<seq<Claim>>>, sum: Remote<Option<Summary>>): (r: Page)
    ensures r.queue == Load(p.queue, pend, sum)
    ensures r.panel == p.panel && r.query == p.query && r.loaded == p.loaded
    ensures !r.queue.loading
  {
    p.(queue := Load(p.queue, pend, sum))
  }

  // ------------------------------------------------------------ scoring

  const UnknownLabel := Str("UNKNOWN")
  const ScoringFallback := "Scoring failed"

  /** `openReview(claim)` up to its `await`: the panel opens at once on the
      selected claim, with the scoring request in flight. */
  function OpenReview(p: Page, claim: Claim): (r: Page)
    ensures r.panel.Some? && r.panel.value.claim == Some(claim)
    ensures r.panel.value.scoring == Some(ScoringLoading)
    ensures !r.panel.value.busy && !r.panel.value.showRaw
    ensures r.queue == p.queue && r.query == p.query && r.loaded == p.loaded
  {
    p.(panel := Some(Panel(Some(claim), Some(ScoringLoading), false, false)))
  }

  /** The `mlResponse` built from a scoring body. */
  function MlOf(body: ScoreBody): (ml: MlResponse)
    ensures ml.predictedLabel == Coalesce(body.predictedLabel, UnknownLabel)
    ensures body.predictedLabel.Some? && body.predictedLabel.value != Null ==> ml.predictedLabel == body.predictedLabel.value
    ensures ml.score == body.probability && ml.probability == body.probability
    ensures body.topFeatures.Some? ==> ml.topFeatures == body.topFeatures.value
    ensures body.topFeatures.None? ==> ml.topFeatures == []
    ensures ml.prediction == body.prediction && ml.aiExplanation == body.aiExplanation && ml.raw == body.raw
  {
    MlResponse(
      Coalesce(body.predictedLabel, UnknownLabel),
      body.prediction,
      body.probability,
      body.probability,
      body.topFeatures.GetOr([]),
      body.aiExplanation,
      body.raw)
  }

  /** `openReview(claim)` after a successful scoring call. The new panel is
      installed whatever the panel is now: closed, or open on another claim. */
  function ScoreSucceeded(p: Page, claim: Claim, body: ScoreBody): (r: Page)
    ensures r.panel.Some? && !r.panel.value.busy && !r.panel.value.showRaw
    ensures body.rawClaim.Some? ==> r.panel.value.claim == body.rawClaim
    ensures body.rawClaim.None? ==> r.panel.value.claim == Some(claim)
    ensures r.panel.value.scoring == Some(Scored(MlOf(body), body.payloadSent, body.aggregatedData))
    ensures r.queue == p.queue && r.query == p.query && r.loaded == p.loaded
  {
    p.(panel := Some(Panel(Some(body.rawClaim.GetOr(claim)), Some(Scored(MlOf(body), body.payloadSent, body.aggregatedData)), false, false)))
  }

  /** The scoring error shown in the panel: the server's error text, else its
      detail text, else the exception's message, else a fixed fallback; an
      empty text counts as missing at every step. */
  function ScoringError(e: ErrorInfo): (r: string)
    ensures r != ""
    ensures HasText(e.serverError) ==> r == e.serverError.value
    ensures !HasText(e.serverError) && HasText(e.serverDetail) ==> r == e.serverDetail.value
    ensures !HasText(e.serverError) && !HasText(e.serverDetail) && HasText(e.message) ==> r == e.message.value
    ensures !HasText(e.serverError) && !HasText(e.serverDetail) && !HasText(e.message) ==> r == ScoringFallback
  {
    OrElse(e.serverError, OrElse(e.serverDetail, OrElse(e.message, ScoringFallback)))
  }

  /** `openReview(claim)` after a failed scoring call: the selected claim is
      kept, the panel is not busy, the error is the most specific message. */
  function ScoreFailed(p: Page, claim: Claim, e: ErrorInfo): (r: Page)
    ensures r.panel.Some? && r.panel.value.claim == Some(claim)
    ensures r.panel.value.scoring == Some(ScoringFailed(ScoringError(e)))
    ensures !r.panel.value.busy && !r.panel.value.showRaw
    ensures r.queue == p.queue && r.query == p.query && r.loaded == p.loaded
  {
    p.(panel := Some(Panel(Some(claim), Some(ScoringFailed(ScoringError(e))), false, false)))
  }

  // ------------------------------------------------------------ panel UI

  /** The Close button, a click on the backdrop and the Escape key: the panel
      is discarded, even while a decision is in flight. */
  function Close(p: Page): (r: Page)
    ensures r.panel.None?
    ensures r.queue == p.queue && r.query == p.query && r.loaded == p.loaded
  {
    p.(panel := None)
  }

  /** The Show/Hide Raw Response button flips `showRaw`; it is only rendered
      on an open panel, so on a closed one nothing happens. */
  function ToggleRaw(p: Page): (r: Page)
    ensures p.panel.None? ==> r == p
    ensures p.panel.Some? ==> r.panel.Some? && r.panel.value.showRaw == !p.panel.value.showRaw
    ensures p.panel.Some? ==> r.panel.value.(showRaw := p.panel.value.showRaw) == p.panel.value
    ensures r.queue == p.queue && r.query == p.query && r.loaded == p.loaded
  {
    match p.panel
    case None => p
    case Some(panel) => p.(panel := Some(panel.(showRaw := !panel.showRaw)))
  }

  /** Toggling twice restores the panel. */
  lemma ToggleRawInvolution(p: Page)
    ensures ToggleRaw(ToggleRaw(p)) == p
  {
  }

  // ------------------------------------------------------------ decide

  datatype Decision = Approved | Rejected

  function DecisionName(d: Decision): string {
    match d
    case Approved => "Approved"
    case Rejected => "Rejected"
  }

  /** The review request body: `score` and `label` are sent only when present. */
  datatype DecisionPayload = DecisionPayload(decision: string, score: Option<real>, predictedLabel: Option<Value>)

  /** The request `decide` posts: the claim id in the path, and the body. */
  datatype ReviewRequest = ReviewRequest(claimId: Option<string>, payload: DecisionPayload)

  /** `panel?.scoring?.mlResponse`. */
  function MlResponseOf(panel: Panel): Option<MlResponse> {
    match panel.scoring
    case Some(Scored(ml, _, _)) => Some(ml)
    case _ => None
  }

  /** A score worth sending: a number other than 0. */
  predicate SendableScore(v: Option<Value>) {
    v.Some? && v.value.Num? && v.value.n != 0.0
  }

  /** The decision payload built from the panel's scoring result. */
  function BuildPayload(panel: Panel, d: Decision): (r: DecisionPayload)
    ensures r.decision == DecisionName(d)
    ensures r.score.Some? <==> MlResponseOf(panel).Some? && SendableScore(MlResponseOf(panel).value.score)
    ensures r.score.Some? ==> MlResponseOf(panel).value.score == Some(Num(r.score.value))
    ensures r.predictedLabel.Some? <==> MlResponseOf(panel).Some? && Truthy(MlResponseOf(panel).value.predictedLabel)
    ensures r.predictedLabel.Some? ==> r.predictedLabel.value == MlResponseOf(panel).value.predictedLabel
  {
    var ml := MlResponseOf(panel);
    var score := if ml.Some? && SendableScore(ml.value.score) then Some(ml.value.score.value.n) else None;
    var lbl := if ml.Some? && Truthy(ml.value.predictedLabel) then Some(ml.value.predictedLabel) else None;
    DecisionPayload(DecisionName(d), score, lbl)
  }

  /** The outcome of the synchronous part of `decide`. */
  datatype DecideStep = DecideStep(page: Page, request: Option<ReviewRequest>)

  /** `decide(d)` up to its `await`: on a closed panel nothing happens. On an
      open one, busy or not, the panel is marked busy and the request is
      posted for the panel's claim. A panel object without a claim (the
      closed-panel spread of `DecideFailed`) throws while building the path,
      before anything is posted, and the catch branch runs at once. */
  function Decide(p: Page, d: Decision): (r: DecideStep)
    ensures p.panel.None? ==> r.page == p && r.request.None?
    ensures r.request.Some? <==> p.panel.Some? && p.panel.value.claim.Some?
    ensures r.request.Some? ==> r.page.panel == Some(p.panel.value.(busy := true))
    ensures r.request.Some? ==> r.request.value.payload == BuildPayload(p.panel.value, d)
    ensures r.request.Some? ==> r.request.value.claimId == p.panel.value.claim.value.claimId
    ensures r.request.Some? ==> r.page.queue == p.queue
    ensures p.panel.Some? && p.panel.value.claim.None? ==>
      r.page.panel == Some(p.panel.value.(busy := false)) && r.page.queue == p.queue.(err := DecisionFallback)
    ensures r.page.query == p.query && r.page.loaded == p.loaded
  {
    match p.panel
    case None => DecideStep(p, None)
    case Some(panel) =>
      var marked := p.(panel := Some(panel.(busy := true)));
      match panel.claim
      case Some(c) => DecideStep(marked, Some(ReviewRequest(c.claimId, BuildPayload(panel, d))))
      case None => DecideStep(DecideFailed(marked, ErrorInfo(None, None, Some("TypeError"))), None)
  }

  /** `decide` after a successful post: the panel is discarded and the queue
      reloaded with the two given load results. */
  function DecideSucceeded(p: Page, pend: Remote<Option<seq<Claim>>>, sum: Remote<Option<Summary>>): (r: Page)
    ensures r.panel.None?
    ensures r.queue == Load(p.queue, pend, sum)
    ensures r.query == p.query && r.loaded == p.loaded
  {
    p.(panel := None, queue := Load(p.queue, pend, sum))
  }

  const DecisionFallback := "Failed to persist decision"

  /** The page-level error of a failed decision: the server error or the fallback. */
  function DecisionError(e: ErrorInfo): (r: string)
    ensures r != ""
    ensures HasText(e.serverError) ==> r == e.serverError.value
    ensures !HasText(e.serverError) ==> r == DecisionFallback
  {
    OrElse(e.serverError, DecisionFallback)
  }

  /** `{ ...p, busy: false }`: spreading a closed (null) panel gives an
      object with only `busy`. */
  function SpreadNotBusy(panel: Option<Panel>): (r: Panel)
    ensures !r.busy
    ensures panel.Some? ==> r == panel.value.(busy := false)
    ensures panel.None? ==> r.claim.None? && r.scoring.None?
  {
    match panel
    case Some(q) => q.(busy := false)
    case None => Panel(None, None, false, false)
  }

  /** `decide` after a failed post, as written: the page error is set and the
      current panel is spread with `busy: false`. */
  function DecideFailed(p: Page, e: ErrorInfo): (r: Page)
    ensures r.queue == p.queue.(err := DecisionError(e))
    ensures r.panel.Some? && !r.panel.value.busy
    ensures p.panel.Some? ==> r.panel.value == p.panel.value.(busy := false)
    ensures r.query == p.query && r.loaded == p.loaded
  {
    p.(queue := p.queue.(err := DecisionError(e)), panel := Some(SpreadNotBusy(p.panel)))
  }

  /** `decide` after a failed post, with the update skipped when the panel
      has been closed meanwhile (`p => p && { ...p, busy: false }`). */
  function DecideFailedGuarded(p: Page, e: ErrorInfo): (r: Page)
    ensures r.queue == p.queue.(err := DecisionError(e))
    ensures p.panel.None? ==> r.panel.None?
    ensures p.panel.Some? ==> r.panel == Some(p.panel.value.(busy := false))
    ensures WellFormed(p) ==> WellFormed(r)
    ensures r.query == p.query && r.loaded == p.loaded
  {
    p.(queue := p.queue.(err := DecisionError(e)), panel := if p.panel.Some? then Some(SpreadNotBusy(p.panel)) else None)
  }

  /** A late scoring response, applied only while the panel is still waiting
      for that claim's score. */
  function ScoreSucceededGuarded(p: Page, claim: Claim, body: ScoreBody): (r: Page)
    ensures AwaitingScore(p, claim) ==> r == ScoreSucceeded(p, claim, body)
    ensures !AwaitingScore(p, claim) ==> r == p
  {
    if AwaitingScore(p, claim) then ScoreSucceeded(p, claim, body) else p
  }

  /** A late scoring failure, applied only while the panel is still waiting
      for that claim's score. */
  function ScoreFailedGuarded(p: Page, claim: Claim, e: ErrorInfo): (r: Page)
    ensures AwaitingScore(p, claim) ==> r == ScoreFailed(p, claim, e)
    ensures !AwaitingScore(p, claim) ==> r == p
  {
    if AwaitingScore(p, claim) then ScoreFailed(p, claim, e) else p
  }

  /** The panel is open on `claim` with its score still loading. */
  predicate AwaitingScore(p: Page, claim: Claim) {
    p.panel.Some? && p.panel.value.claim == Some(claim) && p.panel.value.scoring == Some(ScoringLoading)
  }

  // ------------------------------------------------------------ properties

  /** Every transition of the page keeps the panel renderable, except a failed
      decision on a panel closed meanwhile (see `ClosedDecisionFailureBreaksPanel`). */
  lemma TransitionsKeepWellFormed(p: Page, claim: Claim, body: ScoreBody, e: ErrorInfo, d: Decision,
                                  pend: Remote<Option<seq<Claim>>>, sum: Remote<Option<Summary>>)
    requires WellFormed(p)
    ensures WellFormed(OpenReview(p, claim))
    ensures WellFormed(ScoreSucceeded(p, claim, body))
    ensures WellFormed(ScoreFailed(p, claim, e))
    ensures WellFormed(Close(p)) && WellFormed(ToggleRaw(p))
    ensures WellFormed(Decide(p, d).page)
    ensures WellFormed(DecideSucceeded(p, pend, sum))
    ensures p.panel.Some? ==> WellFormed(DecideFailed(p, e))
    ensures WellFormed(DecideFailedGuarded(p, e)) && WellFormed(ScoreSucceededGuarded(p, claim, body))
    ensures WellFormed(ScoreFailedGuarded(p, claim, e))
    ensures WellFormed(Mount(p, pend, sum)) && WellFormed(Refresh(p, pend, sum))
  {
  }

  /** Escape pressed while a decision is in flight, then the post fails: the
      page is left with a panel object that has no claim, which the drawer
      header cannot render. */
  lemma ClosedDecisionFailureBreaksPanel(p: Page, d: Decision, e: ErrorInfo)
    requires p.panel.Some? && WellFormed(p)
    ensures var inFlight := Decide(p, d);
      && inFlight.request.Some? && inFlight.page.panel.value.busy
      && !WellFormed(DecideFailed(Close(inFlight.page), e))
      && DecideFailed(Close(inFlight.page), e).panel.Some?
      && DecideFailed(Close(inFlight.page), e).panel.value.claim.None?
  {
  }

  /** With the guarded update the same sequence leaves the panel closed. */
  lemma ClosedDecisionFailureGuarded(p: Page, d: Decision, e: ErrorInfo)
    requires WellFormed(p)
    ensures var r := DecideFailedGuarded(Close(Decide(p, d).page), e);
      && r.panel.None? && WellFormed(r) && r.queue.err == DecisionError(e)
  {
  }

  /** A scoring response arriving after the panel was closed reopens it. */
  lemma LateScoreReopensPanel(p: Page, claim: Claim, body: ScoreBody)
    ensures Close(OpenReview(p, claim)).panel.None?
    ensures ScoreSucceeded(Close(OpenReview(p, claim)), claim, body).panel.Some?
  {
  }

  /** A scoring failure arriving after the panel was closed reopens it too,
      showing the error. */
  lemma LateScoreFailureReopensPanel(p: Page, claim: Claim, e: ErrorInfo)
    ensures Close(OpenReview(p, claim)).panel.None?
    ensures ScoreFailed(Close(OpenReview(p, claim)), claim, e).panel.Some?
  {
  }

  /** A scoring response for claim `a` arriving after claim `b` was opened
      replaces `b`'s panel with `a`'s result. */
  lemma LateScoreOverwritesOtherClaim(p: Page, a: Claim, b: Claim, body: ScoreBody)
    requires body.rawClaim.None?
    ensures ScoreSucceeded(OpenReview(OpenReview(p, a), b), a, body).panel.value.claim == Some(a)
  {
  }

  /** A scoring failure for claim `a` arriving after claim `b` was opened
      replaces `b`'s panel with `a`'s error. */
  lemma LateScoreFailureOverwritesOtherClaim(p: Page, a: Claim, b: Claim, e: ErrorInfo)
    requires a != b
    ensures OpenReview(OpenReview(p, a), b).panel.value.claim == Some(b)
    ensures ScoreFailed(OpenReview(OpenReview(p, a), b), a, e).panel.value.claim == Some(a)
  {
  }

  /** With the guards, a late response or failure neither reopens a closed
      panel nor touches the panel of another claim, and an awaited one is
      applied. */
  lemma GuardedScoreIgnoresStale(p: Page, a: Claim, b: Claim, body: ScoreBody, e: ErrorInfo)
    requires a != b
    ensures ScoreSucceededGuarded(Close(OpenReview(p, a)), a, body).panel.None?
    ensures ScoreSucceededGuarded(OpenReview(OpenReview(p, a), b), a, body) == OpenReview(OpenReview(p, a), b)
    ensures ScoreSucceededGuarded(OpenReview(p, a), a, body) == ScoreSucceeded(OpenReview(p, a), a, body)
    ensures ScoreFailedGuarded(Close(OpenReview(p, a)), a, e).panel.None?
    ensures ScoreFailedGuarded(OpenReview(OpenReview(p, a), b), a, e) == OpenReview(OpenReview(p, a), b)
    ensures ScoreFailedGuarded(OpenReview(p, a), a, e) == ScoreFailed(OpenReview(p, a), a, e)
  {
  }

  /** A scoring reply that arrives while a decision is in flight resets
      `busy`, which re-enables the decision buttons. */
  lemma ScoreReplyClearsBusy(p: Page, claim: Claim, body: ScoreBody, e: ErrorInfo)
    requires p.panel.Some? && p.panel.value.busy
    ensures !ScoreSucceeded(p, claim, body).panel.value.busy
    ensures !ScoreFailed(p, claim, e).panel.value.busy
  {
  }

  /** `decide` does not look at `busy`: a second click while the first post is
      in flight posts again (the buttons are disabled while busy). */
  lemma DecideIgnoresBusy(p: Page, d: Decision)
    requires p.panel.Some? && p.panel.value.busy && p.panel.value.claim.Some?
    ensures Decide(p, d).request.Some?
    ensures Decide(p, d).page == p
  {
  }

  /** Deciding on a scored panel sends the nonzero probability and the label. */
  lemma DecideSendsScoreAndLabel(p: Page, claim: Claim, body: ScoreBody, d: Decision, n: real, name: string)
    requires body.probability == Some(Num(n)) && n != 0.0
    requires body.predictedLabel == Some(Str(name)) && name != ""
    ensures var r := Decide(ScoreSucceeded(p, claim, body), d);
      r.request.Some? && r.request.value.payload == DecisionPayload(DecisionName(d), Some(n), Some(Str(name)))
  {
  }

  /** A decision taken while the score is loading or after it failed sends
      the decision alone. */
  lemma DecideWithoutScore(p: Page, claim: Claim, e: ErrorInfo, d: Decision)
    ensures Decide(OpenReview(p, claim), d).request.value.payload == DecisionPayload(DecisionName(d), None, None)
    ensures Decide(ScoreFailed(p, claim, e), d).request.value.payload == DecisionPayload(DecisionName(d), None, None)
  {
  }

  /** A failed decision keeps the panel, with only `busy` reset, so the
      operator can retry. */
  lemma DecisionFailureAllowsRetry(p: Page, d: Decision, e: ErrorInfo)
    requires p.panel.Some?
    ensures var r := DecideFailed(Decide(p, d).page, e);
      && r.panel == Some(p.panel.value.(busy := false))
      && r.queue.err == DecisionError(e)
  {
  }
}

=== FILE: routes.dfy ===
/**
  The application shell: reading the signed-in user from the stored token,
  the role guard around protected pages, and the table of routes.

  Decoding the token's payload segment (base64 and JSON) is the abstract
  partial function `decode`; `None` stands for a decoding that throws.
 */
module Routes {
  import opened Wrappers
  import opened Json

  // ------------------------------------------------------------ token

  /** `s.split(sep)` for a one-character separator. */
  function Split(s: string, sep: char): (r: seq<string>)
    ensures |r| >= 1
    ensures forall i :: 0 <= i < |r| ==> sep !in r[i]
    decreases |s|
  {
    if |s| == 0 then [""]
    else
      var rest := Split(s[1..], sep);
      if s[0] == sep then [""] + rest
      else [[s[0]] + rest[0]] + rest[1..]
  }

  /** `parts.join(sep)`. */
  function JoinWith(parts: seq<string>, sep: char): string
    requires |parts| >= 1
  {
    if |parts| == 1 then parts[0] else parts[0] + [sep] + JoinWith(parts[1..], sep)
  }

  /** Joining the pieces of a split gives back the string. */
  lemma {:induction false} JoinSplit(s: string, sep: char)
    ensures JoinWith(Split(s, sep), sep) == s
    decreases |s|
  {
    if |s| > 0 {
      var rest := Split(s[1..], sep);
      JoinSplit(s[1..], sep);
      if s[0] == sep {
        assert ([""] + rest)[1..] == rest;
      } else {
        var r := [[s[0]] + rest[0]] + rest[1..];
        if |rest| > 1 {
          assert r[1..] == rest[1..];
        }
        assert s == [s[0]] + s[1..];
      }
    }
  }

  /** Splitting a join of separator-free pieces gives back the pieces. */
  lemma {:induction false} SplitJoin(parts: seq<string>, sep: char)
    requires |parts| >= 1
    requires forall i :: 0 <= i < |parts| ==> sep !in parts[i]
    ensures Split(JoinWith(parts, sep), sep) == parts
    decreases |parts|, |parts[0]|
  {
    if |parts[0]| > 0 {
      var head := parts[0];
      var tail := [head[1..]] + parts[1..];
      assert JoinWith(parts, sep) == [head[0]] + JoinWith(tail, sep) by {
        if |parts| == 1 {
        } else {
          assert tail[1..] == parts[1..];
        }
      }
      SplitJoin(tail, sep);
      assert JoinWith(parts, sep)[1..] == JoinWith(tail, sep);
      assert head[0] != sep by {
        assert head[0] in parts[0];
      }
      assert [head[0]] + head[1..] == head;
      assert parts == [head] + parts[1..];
    } else if |parts| > 1 {
      SplitJoin(parts[1..], sep);
      assert JoinWith(parts, sep) == [sep] + JoinWith(parts[1..], sep);
      assert JoinWith(parts, sep)[1..] == JoinWith(parts[1..], sep);
      assert parts == [""] + parts[1..];
    }
  }

  /** The decoded token payload. */
  type Claims = map<string, Value>

  /** The user the pages see. */
  datatype User = User(email: Option<Value>, role: Option<Value>, providerId: Value)

  /** `getUser()` for the stored token (`None` when none is stored). A token
      without a dot has no payload segment, and `atob(undefined)` throws. */
  function GetUser(stored: Option<string>, decode: string -> Option<Claims>): (r: Option<User>)
    ensures stored.None? || stored == Some("") ==> r.None?
    ensures r.Some? ==> stored.Some? && |Split(stored.value, '.')| >= 2
    ensures r.Some? ==> decode(Split(stored.value, '.')[1]).Some?
    ensures r.Some? ==> var json := decode(Split(stored.value, '.')[1]).value;
      && r.value.email == Field(json, "email") && r.value.role == Field(json, "role")
      && (Present(Field(json, "providerId")) ==> r.value.providerId == json["providerId"])
      && (!Present(Field(json, "providerId")) ==> r.value.providerId == Null)
    ensures (stored.Some? && stored.value != "" && |Split(stored.value, '.')| >= 2
             && decode(Split(stored.value, '.')[1]).Some?) ==> r.Some?
  {
    match stored
    case None => None
    case Some(token) =>
      if token == "" then None
      else
        var segments := Split(token, '.');
        if |segments| < 2 then None
        else match decode(segments[1])
          case None => None
          case Some(json) =>
            var pid := Field(json, "providerId");
            Some(User(Field(json, "email"), Field(json, "role"), if Present(pid) then pid.value else Null))
  }

  /** A token of three dot-free segments splits into exactly those, so the
      segment decoded is the middle one. */
  lemma PayloadSegment(header: string, payload: string, signature: string)
    requires '.' !in header && '.' !in payload && '.' !in signature
    ensures Split(header + "." + payload + "." + signature, '.') == [header, payload, signature]
  {
    var parts := [header, payload, signature];
    assert parts[1..] == [payload, signature];
    assert [payload, signature][1..] == [signature];
    assert JoinWith([payload, signature], '.') == payload + ['.'] + signature;
    assert JoinWith(parts, '.') == header + ['.'] + (payload + ['.'] + signature);
    assert header + "." + payload + "." + signature == header + ['.'] + (payload + ['.'] + signature);
    SplitJoin(parts, '.');
  }

  // ------------------------------------------------------------ guard

  /** What a guarded route renders. */
  datatype Guard = RedirectTo(path: string) | RenderChildren

  /** `RequireRole({ role })`. */
  function RequireRole(user: Option<User>, role: Option<string>): (r: Guard)
    ensures user.None? ==> r == RedirectTo("/login")
    ensures user.Some? && role.Some? && role.value != "" && user.value.role != Some(Str(role.value)) ==> r == RedirectTo("/")
    ensures r == RenderChildren <==> user.Some? && (role.None? || role.value == "" || user.value.role == Some(Str(role.value)))
  {
    if user.None? then RedirectTo("/login")
    else if role.Some? && role.value != "" && user.value.role != Some(Str(role.value)) then RedirectTo("/")
    else RenderChildren
  }

  // ------------------------------------------------------------ routes

  datatype Screen = Home | AdminReview | OrganizedCrime | ProviderDashboard | ClaimForm | Login | Signup

  /** One row of the route table. */
  datatype Route = Guarded(screen: Screen, role: string) | Open(screen: Screen) | Fallback

  function RouteFor(path: string): Route {
    if path == "/" then Open(Home)
    else if path == "/admin" then Guarded(AdminReview, "admin")
    else if path == "/organized-crime" then Guarded(OrganizedCrime, "admin")
    else if path == "/provider" then Guarded(ProviderDashboard, "provider")
    else if path == "/submit" then Guarded(ClaimForm, "provider")
    else if path == "/login" then Open(Login)
    else if path == "/signup" then Open(Signup)
    else Fallback
  }

  /** What a path shows: a screen, or a redirect. */
  datatype View = Show(screen: Screen) | Redirect(to: string)

  function Resolve(path: string, user: Option<User>): (r: View)
    ensures RouteFor(path).Fallback? ==> r == Redirect("/")
    ensures RouteFor(path).Open? ==> r == Show(RouteFor(path).screen)
    ensures RouteFor(path).Guarded? ==>
      (r == Show(RouteFor(path).screen) <==> user.Some? && user.value.role == Some(Str(RouteFor(path).role)))
  {
    match RouteFor(path)
    case Fallback => Redirect("/")
    case Open(s) => Show(s)
    case Guarded(s, role) =>
      match RequireRole(user, Some(role))
      case RedirectTo(to) => Redirect(to)
      case RenderChildren => Show(s)
  }

  /** The required role of every path: admin pages need "admin", provider
      pages need "provider", the rest are open. */
  lemma RoleTable(path: string)
    ensures path == "/admin" || path == "/organized-crime" <==> RouteFor(path).Guarded? && RouteFor(path).role == "admin"
    ensures path == "/provider" || path == "/submit" <==> RouteFor(path).Guarded? && RouteFor(path).role == "provider"
    ensures path == "/" || path == "/login" || path == "/signup" <==> RouteFor(path).Open?
  {
  }

  /** An admin screen is shown only to a signed-in admin, a provider screen
      only to a signed-in provider; without a user they go to the login page. */
  lemma ScreensNeedRole(path: string, user: Option<User>)
    ensures Resolve(path, user) == Show(AdminReview) || Resolve(path, user) == Show(OrganizedCrime)
      ==> user.Some? && user.value.role == Some(Str("admin"))
    ensures Resolve(path, user) == Show(ProviderDashboard) || Resolve(path, user) == Show(ClaimForm)
      ==> user.Some? && user.value.role == Some(Str("provider"))
    ensures RouteFor(path).Guarded? && user.None? ==> Resolve(path, user) == Redirect("/login")
  {
  }

  /** Every redirect lands on a path that shows a screen. */
  lemma RedirectsSettle(path: string, user: Option<User>)
    ensures Resolve(path, user).Redirect? ==> Resolve(Resolve(path, user).to, user).Show?
  {
  }
}

=== FILE: signup.dfy ===
/**
  The signup page: the email and password checks that gate the submit
  button, the order in which `submit` re-checks them, and the request body
  it posts.
 */
module Signup {
  import opened Wrappers
  import opened Json
  import opened Text

  // ------------------------------------------------------------ email

  /** The regular expression `\S+@\S+\.\S+` matches with its `@` at `at` and
      its `.` at `dot`: a non-space character before the `@`, a non-empty run
      of non-space characters between the two, a non-space character after
      the dot. Longer runs at either end do not change whether it matches. */
  predicate MatchAt(e: string, at: int, dot: int) {
    && 0 < at && at + 1 < dot && dot + 1 < |e|
    && e[at] == '@' && e[dot] == '.'
    && !IsSpace(e[at - 1])
    && (forall k :: at < k < dot ==> !IsSpace(e[k]))
    && !IsSpace(e[dot + 1])
  }

  /** `emailValid`: the expression matches somewhere in the email. */
  predicate EmailValid(e: string) {
    exists at, dot | 0 < at < dot < |e| :: MatchAt(e, at, dot)
  }

  /** Searches for a match of `\S+@\S+\.\S+`, one `@` candidate at a time. */
  method ScanEmail(e: string) returns (found: bool)
    ensures found <==> EmailValid(e)
  {
    var at := 1;
    while at < |e|
      invariant 1 <= at <= |e| || (|e| == 0 && at == 1)
      invariant forall a, d :: 0 < a < at && a < d < |e| ==> !MatchAt(e, a, d)
      decreases |e| - at
    {
      if e[at] == '@' && !IsSpace(e[at - 1]) {
        var j := at + 1;
        while j < |e| && !IsSpace(e[j])
          invariant at + 1 <= j <= |e|
          invariant forall k :: at < k < j ==> !IsSpace(e[k])
          invariant forall d :: at < d < j ==> !MatchAt(e, at, d)
          decreases |e| - j
        {
          if e[j] == '.' && at + 1 < j && j + 1 < |e| && !IsSpace(e[j + 1]) {
            assert MatchAt(e, at, j);
            return true;
          }
          j := j + 1;
        }
        forall d | at < d < |e| ensures !MatchAt(e, at, d) {
          if d > j {
            assert IsSpace(e[j]);
          }
        }
      }
      at := at + 1;
    }
    return false;
  }

  // ------------------------------------------------------------ gating

  /** `pwMatch`: the confirmation equals the password, of at least 6 characters. */
  predicate PasswordsMatch(password: string, confirm: string) {
    password == confirm && |password| >= 6
  }

  /** The form's state. */
  datatype Form = Form(role: string, providerId: string, email: string, password: string, confirmPassword: string, loading: bool)

  /** The role clause of `canSubmit`: no role, the admin role, or the
      provider role with a provider id that is not blank. */
  predicate RoleReady(role: string, providerId: string) {
    role == "" || role == "admin" || (role == "provider" && |Trim(providerId)| > 0)
  }

  /** `canSubmit`, which enables the submit button. */
  predicate CanSubmit(f: Form) {
    EmailValid(f.email) && PasswordsMatch(f.password, f.confirmPassword) && RoleReady(f.role, f.providerId) && !f.loading
  }

  /** Submitting is disabled while a request is in flight, for an invalid
      email, and for mismatched or short passwords. */
  lemma CanSubmitNeeds(f: Form)
    ensures f.loading ==> !CanSubmit(f)
    ensures !EmailValid(f.email) ==> !CanSubmit(f)
    ensures f.password != f.confirmPassword || |f.password| < 6 ==> !CanSubmit(f)
  {
  }

  /** A provider needs a provider id that is not blank; an admin, or a form
      with no role, needs none; any other role can never submit. */
  lemma RoleGate(f: Form)
    requires EmailValid(f.email) && PasswordsMatch(f.password, f.confirmPassword) && !f.loading
    ensures f.role == "provider" ==> (CanSubmit(f) <==> exists i :: 0 <= i < |f.providerId| && !IsSpace(f.providerId[i]))
    ensures f.role == "admin" || f.role == "" ==> CanSubmit(f)
    ensures f.role != "" && f.role != "admin" && f.role != "provider" ==> !CanSubmit(f)
  {
    if f.role == "provider" && !CanSubmit(f) {
      assert Trim(f.providerId) == [];
    }
  }

  // ------------------------------------------------------------ submit

  const EmailMessage := "Please enter a valid email."
  const PasswordMessage := "Passwords must match and be at least 6 characters."
  const SuccessMessage := "Account created! Redirecting to login\U{2026}"
  const FailureFallback := "Signup failed"
  const DefaultProviderId := "P001"

  /** The signup request body; `providerId` is sent for providers only. */
  datatype SignupBody = SignupBody(email: string, password: string, role: string, providerId: Option<string>)

  datatype Status = NoStatus | Success | Error

  /** What the page shows, and where it is about to navigate. */
  datatype View = View(msg: string, status: Status, loading: bool, redirectTo: Option<string>)

  /** The provider id sent: trimmed, or the default when blank. */
  function ProviderIdSent(providerId: string): (r: string)
    ensures r != ""
    ensures Trim(providerId) != "" ==> r == Trim(providerId)
    ensures Trim(providerId) == "" ==> r == DefaultProviderId
  {
    if Trim(providerId) != "" then Trim(providerId) else DefaultProviderId
  }

  /** `submit` up to its `await`: the email is checked first, then the
      passwords; the first failure is reported with no request; otherwise
      the page starts loading and posts the body. */
  function Submit(f: Form): (r: (View, Option<SignupBody>))
    ensures r.1.Some? <==> EmailValid(f.email) && PasswordsMatch(f.password, f.confirmPassword)
    ensures !EmailValid(f.email) ==> r.0 == View(EmailMessage, Error, f.loading, None)
    ensures EmailValid(f.email) && !PasswordsMatch(f.password, f.confirmPassword) ==> r.0 == View(PasswordMessage, Error, f.loading, None)
    ensures r.1.Some? ==> r.0 == View("", NoStatus, true, None)
    ensures r.1.Some? ==> r.1.value.email == Trim(f.email) && r.1.value.password == f.password && r.1.value.role == f.role
    ensures r.1.Some? ==> (r.1.value.providerId.Some? <==> f.role == "provider")
    ensures r.1.Some? && f.role == "provider" ==> r.1.value.providerId == Some(ProviderIdSent(f.providerId))
  {
    if !EmailValid(f.email) then (View(EmailMessage, Error, f.loading, None), None)
    else if !PasswordsMatch(f.password, f.confirmPassword) then (View(PasswordMessage, Error, f.loading, None), None)
    else
      var pid := if f.role == "provider" then Some(ProviderIdSent(f.providerId)) else None;
      (View("", NoStatus, true, None), Some(SignupBody(Trim(f.email), f.password, f.role, pid)))
  }

  /** `submit` after the post: success schedules the move to the login page;
      failure shows the server error or the fallback. Loading ends either way. */
  function SignupDone(outcome: Remote<()>): (r: View)
    ensures !r.loading
    ensures outcome.Ok? ==> r == View(SuccessMessage, Success, false, Some("/login"))
    ensures outcome.Err? ==> r.status == Error && r.redirectTo.None? && r.msg != ""
    ensures outcome.Err? && HasText(outcome.info.serverError) ==> r.msg == outcome.info.serverError.value
    ensures outcome.Err? && !HasText(outcome.info.serverError) ==> r.msg == FailureFallback
  {
    match outcome
    case Ok(_) => View(SuccessMessage, Success, false, Some("/login"))
    case Err(e) => View(OrElse(e.serverError, FailureFallback), Error, false, None)
  }

  /** Whatever `canSubmit` allows, `submit` posts. */
  lemma CanSubmitPosts(f: Form)
    requires CanSubmit(f)
    ensures Submit(f).1.Some?
    ensures f.role == "provider" ==> Submit(f).1.value.providerId == Some(Trim(f.providerId))
  {
  }
}

=== FILE: text.dfy ===
/**
  String primitives used by the portal pages: JavaScript's `String.prototype.trim`,
  `toLowerCase`/`toUpperCase` (ASCII letters only) and `includes`, and the
  whitespace class shared by `trim` and the regular-expression escape `\s`.
 */
module Text {

  /** The ECMAScript WhiteSpace and LineTerminator code points: what `trim`
      removes and what the regular-expression class `\s` matches. */
  predicate IsSpace(c: char) {
    || c == ' ' || c == '\t' || c == '\n' || c == '\r'
    || c == '\U{000B}' || c == '\U{000C}'
    || c == '\U{00A0}' || c == '\U{1680}'
    || ('\U{2000}' <= c <= '\U{200A}')
    || c == '\U{2028}' || c == '\U{2029}' || c == '\U{202F}' || c == '\U{205F}'
    || c == '\U{3000}' || c == '\U{FEFF}'
  }

  /** Removes leading whitespace. */
  function TrimStart(s: string): (r: string)
    ensures |r| <= |s| && r == s[|s| - |r|..]
    ensures r == [] || !IsSpace(r[0])
    ensures forall i :: 0 <= i < |s| - |r| ==> IsSpace(s[i])
  {
    if |s| > 0 && IsSpace(s[0]) then TrimStart(s[1..]) else s
  }

  /** Removes trailing whitespace. */
  function TrimEnd(s: string): (r: string)
    ensures |r| <= |s| && r == s[..|r|]
    ensures r == [] || !IsSpace(r[|r| - 1])
    ensures forall i :: |r| <= i < |s| ==> IsSpace(s[i])
  {
    if |s| > 0 && IsSpace(s[|s| - 1]) then TrimEnd(s[..|s| - 1]) else s
  }

  /** `s.trim()`: the infix of `s` left after removing whitespace at both ends. */
  function Trim(s: string): (r: string)
    ensures |r| <= |s| && Contains(s, r)
    ensures exists i | 0 <= i <= |s| - |r| :: TrimmedAt(s, r, i)
    ensures r == [] || (!IsSpace(r[0]) && !IsSpace(r[|r| - 1]))
    ensures r == [] <==> forall i :: 0 <= i < |s| ==> IsSpace(s[i])
  {
    TrimmedInfix(s, TrimStart(s), TrimEnd(TrimStart(s)));
    TrimEnd(TrimStart(s))
  }

  /** A prefix `r` of a suffix `a` of `s`, with only whitespace cut off
      around it, is `s` with whitespace removed at the two ends. */
  lemma TrimmedInfix(s: string, a: string, r: string)
    requires |a| <= |s| && a == s[|s| - |a|..]
    requires forall k :: 0 <= k < |s| - |a| ==> IsSpace(s[k])
    requires |r| <= |a| && r == a[..|r|]
    requires forall k :: |r| <= k < |a| ==> IsSpace(a[k])
    ensures TrimmedAt(s, r, |s| - |a|)
  {
    var i := |s| - |a|;
    assert OccursAt(s, r, i) by {
      assert s[i..i + |r|] == a[..|r|];
    }
    forall k | i + |r| <= k < |s| ensures IsSpace(s[k]) {
      assert |r| <= k - i < |a| && a[k - i] == s[k];
    }
  }

  /** `r` occurs in `s` at offset `i`, and everything around it is whitespace:
      `r` is `s` with some whitespace removed at either end and nothing else. */
  predicate TrimmedAt(s: string, r: string, i: int) {
    && OccursAt(s, r, i)
    && (forall k :: 0 <= k < i ==> IsSpace(s[k]))
    && (forall k :: i + |r| <= k < |s| ==> IsSpace(s[k]))
  }

  /** A string with no whitespace at either end is its own trim. */
  lemma TrimOfTrimmed(s: string)
    requires s == [] || (!IsSpace(s[0]) && !IsSpace(s[|s| - 1]))
    ensures Trim(s) == s
  {
  }

  /** Trimming twice is trimming once. */
  lemma TrimIdempotent(s: string)
    ensures Trim(Trim(s)) == Trim(s)
  {
    var t := Trim(s);
    assert t == [] || (!IsSpace(t[0]) && !IsSpace(t[|t| - 1]));
    TrimOfTrimmed(t);
  }

  function LowerChar(c: char): char {
    if 'A' <= c <= 'Z' then (c as int + 32) as char else c
  }

  function UpperChar(c: char): char {
    if 'a' <= c <= 'z' then (c as int - 32) as char else c
  }

  /** `s.toLowerCase()`, restricted to ASCII letters. */
  function ToLower(s: string): (r: string)
    ensures |r| == |s|
    ensures forall i :: 0 <= i < |s| ==> r[i] == LowerChar(s[i])
    ensures forall i :: 0 <= i < |r| ==> !('A' <= r[i] <= 'Z')
  {
    seq(|s|, i requires 0 <= i < |s| => LowerChar(s[i]))
  }

  /** `s.toUpperCase()`, restricted to ASCII letters. */
  function ToUpper(s: string): (r: string)
    ensures |r| == |s|
    ensures forall i :: 0 <= i < |s| ==> r[i] == UpperChar(s[i])
    ensures forall i :: 0 <= i < |r| ==> !('a' <= r[i] <= 'z')
  {
    seq(|s|, i requires 0 <= i < |s| => UpperChar(s[i]))
  }

  /** Lower-casing a string that has no upper-case letter changes nothing;
      in particular lower-casing is idempotent. */
  lemma ToLowerIdempotent(s: string)
    ensures ToLower(ToLower(s)) == ToLower(s)
  {
  }

  /** `t` occurs in `s` starting at offset `i`. */
  predicate OccursAt(s: string, t: string, i: int) {
    0 <= i <= |s| - |t| && s[i..i + |t|] == t
  }

  /** `s.includes(t)`: `t` occurs in `s` at some offset. */
  predicate Contains(s: string, t: string) {
    exists i | 0 <= i <= |s| - |t| :: OccursAt(s, t, i)
  }
}

=== FILE: wrappers.dfy ===
/** Optional values, used for JavaScript's `undefined`/absent fields. */
module Wrappers {

  datatype Option<+T> = None | Some(value: T) {

    /** A possibly absent field read with a fallback, as in `x || []`. */
    function GetOr(default: T): (r: T)
      ensures Some? ==> r == value
      ensures None? ==> r == default
    {
      match this
      case Some(v) => v
      case None => default
    }
  }
}
